=== FILE: README.md ===
# Personality quiz core: score aggregator and question sequencer

This project models the two pure cores of a 65-question, five-dimension
personality quiz (EI, SN, TF, JP, AT, each a pair of letters with a fixed
*base* letter E, N, T, J, A). The model is written in Dafny, and the
properties below are proved about it.

* **Score aggregator** (`utils/calculateScores.ts`):
  * the question-bank integrity check;
  * per-dimension scoring. Ratings 1–6 are reverse-coded towards the base
    letter. A completeness policy decides whether a dimension resolves, and
    the percentage is always reported for the base letter;
  * the composite result. It holds the `{EI}{SN}{TF}{JP}-{AT}` code, the
    error list, the per-dimension display entries and the chart data.
* **Question sequencer** (`utils/shuffleQuestions.ts`):
  * a Fisher–Yates shuffle;
  * the scan for the first run of more than `maxConsecutive` questions of
    one dimension;
  * a local repair that swaps the run's last question with a distant
    question of another dimension;
  * the retry loop (at most 50 repairs per shuffle, at most `maxAttempts`
    shuffles) and its best-effort fallback;
  * the order audit `validateShuffledOrder`.

## Files

| file | module | contents |
|---|---|---|
| `questions.dfy` | `Questions` | `Question`, the five dimensions, their letter pairs and base letters, JavaScript numbers (`Num`: finite or NaN) |
| `bank.dfy` | `BankValidation` | `validateQuestions` |
| `scores.dfy` | `Scores` | `clampScore`, `opposite`, `calculateDimensionScore`, `calculateAllScores` |
| `runs.dfy` | `Runs` | runs, long runs and maximal runs: the vocabulary of the ordering constraint |
| `shuffle.dfy` | `Shuffling` | the Fisher–Yates shuffle over a random oracle |
| `sequencer.dfy` | `Sequencer` | `findConsecutiveViolation`, `checkLocalViolations`, `fixViolation`, `shuffleQuestions` |
| `order_stats.dfy` | `OrderStats` | `validateShuffledOrder` |

## Modelling choices

* **JavaScript values.**
  * A response is `Option<Num>`. `None` is a missing key. `Num` is a finite
    real or NaN.
  * Arithmetic is exact on reals. So the percentage is
    `(total - n) / (6n - n) * 100`, and for `n = 0` it is NaN, as `0/0` is
    in JavaScript.
  * Sequences are values. So "the input array is never modified" holds by
    construction: `shuffle` copies, and `fixViolation`'s in-place swap
    becomes a returned sequence.
* **`Math.random`** is an oracle `random: nat -> real` with values in
  [0, 1). It is read at a cursor, and `ShuffleQuestions` returns the next
  unread position. Which shuffle a call makes is therefore determined by the
  oracle and the cursor.
* **`console.warn`** becomes the `exhausted` result flag of
  `ShuffleQuestions`.
* **Messages** (errors, diagnostics, display strings) carry their data, not
  their wording. A `ScoreError` is a missing-answers error with its ids, or
  a shortfall with its counts. A bank `Diagnostic` is an unknown dimension,
  a bad direction or a reverse-flag mismatch.
* **`maxConsecutive` is a `nat`.** Zero is allowed, since the code accepts
  any number there. The header comment of `utils/shuffleQuestions.ts:2-4`
  promises only the default case: never three questions of one dimension
  in a row.
  * `findConsecutiveViolation` increments its counter before comparing, so
    a limit of 0 still reports only pairs. The run limit it enforces is
    therefore `Enforced(k)`: 1 when `k` is 0, otherwise `k`.
  * `validateShuffledOrder` compares the full run length, so with 0 it
    flags every run.
* **The window of the local repair check.** `fixViolation` calls
  `checkLocalViolations` without a limit, so the window is always the
  default 2, whatever `maxConsecutive` the caller asked for. The model
  follows the code: `Acceptable` uses `DefaultMaxConsecutive`, as the call
  at `utils/shuffleQuestions.ts:110` passes no limit.
* **A repaired shuffle can be discarded even when it is clean.** The repair
  loop checks `fixAttempts < 50` before it scans. A shuffle that becomes
  clean on exactly the 50th repair is dropped without a final scan.
  `RepairShuffle` models this: `done` holds only when a scan found nothing.

## Model

| member | source | states |
|---|---|---|
| Questions.Complement | utils/calculateScores.ts:209-210 | `100 - x` keeps NaN as NaN and otherwise adds up with `x` to 100 |
| Questions.Base | utils/calculateScores.ts:28-34 | the base letter is one of the dimension's two letters |
| Questions.ParseDim | utils/calculateScores.ts:17 | a dimension key is recognised exactly when it is one of the five names |
| Questions.PairsWellFormed | utils/calculateScores.ts:17-25 | each pair has two distinct one-letter members, and the five keys are distinct |
| Scores.Opposite | utils/calculateScores.ts:36-39 | the result is a letter of the pair, and differs from its argument when the argument is in the pair. Any other letter maps to the first letter |
| Scores.OppositeInvolution | utils/calculateScores.ts:36-39 | on the pair's letters, `opposite` applied twice is the identity |
| Scores.ClampScore | utils/calculateScores.ts:41-45 | a response is kept exactly when it is a finite number in [1,6], and then it is unchanged. NaN, missing and out-of-range responses give null |
| Scores.Contribution | utils/calculateScores.ts:131-132 | a rating counts as itself towards the base letter and as `7 - rating` otherwise, and stays within [1,6] |
| Scores.DimQuestions | utils/calculateScores.ts:104 | the selection holds only questions of the dimension, and every question of the dimension is in it |
| Scores.DimQuestionsSingle | utils/calculateScores.ts:104 | a one-question bank selects its question exactly when it has the dimension |
| Scores.DimQuestionsAppend | utils/calculateScores.ts:104 | the selection of two banks joined is the selection of each, in order, so bank order and every occurrence are kept |
| Scores.ValidTotalBounds | utils/calculateScores.ts:110-134 | the summed score of `n` usable answers lies in [n, 6n] |
| Scores.FirstUnanswered | utils/calculateScores.ts:114-121 | the position of the first question without a usable answer: every question before it is answered |
| Scores.MissingIds | utils/calculateScores.ts:122-124 | the missing ids are exactly the ids of the dimension's questions without a usable answer, and with the usable ones they account for every question |
| Scores.MissingIdsSingle | utils/calculateScores.ts:122-124 | a single question's id is listed exactly when it has no usable answer |
| Scores.MissingIdsAppend | utils/calculateScores.ts:122-124 | the missing ids of two lists joined are those of each, in order: bank order, once per unanswered occurrence |
| Scores.MissingIdsSnoc | utils/calculateScores.ts:122-124 | one more question at the end adds its id exactly when it is unanswered |
| Scores.ValidCountFull | utils/calculateScores.ts:114-128 | every question counts exactly when every question is answered |
| Scores.WalkMeaning | utils/calculateScores.ts:110-134 | `Walk`, the scoring loop, agrees with the reference sums: in require-all mode it stops at the first unusable answer. Otherwise it skips unusable answers and sums the contributions of the usable ones |
| Scores.Percentage | utils/calculateScores.ts:147-149 | the percentage is NaN exactly when no answer counted. It lies in [0,100] for totals in [n, 6n], and it is at least 50 exactly when the mean rating towards the base is at least 3.5 |
| Scores.PercentageFacts | utils/calculateScores.ts:149 | the algebra of `(total - n) / (6n - n) * 100`: its scaled form, its range, and where it crosses 50 |
| Scores.Resolve | utils/calculateScores.ts:151 | the resolved letter is in the pair, and it is the base letter exactly when the percentage is a number of at least 50. NaN resolves to the other letter |
| Scores.CalculateDimensionScore | utils/calculateScores.ts:93-162 | the result is reported for the base letter. It resolves exactly when the completeness policy allows it, and an error is present exactly when it does not. Missing ids appear exactly in require-all mode with an unanswered question, and list those questions. A resolved dimension's total, count and percentage are those of the usable answers, and its letter follows the 50% rule. `minScore` and `maxScore` are present exactly on a resolved result |
| Scores.ResolvedScore | utils/calculateScores.ts:147-161 | a resolved result has min `n` and max `6n`, a percentage in [0,100] when `n > 0` (NaN when `n = 0`), and a letter of the pair chosen by the 50% rule |
| Scores.PartialThreshold | utils/calculateScores.ts:136-145 | with `requireAllAnswers` off and the default `minAnswered` of 13, a dimension resolves exactly when at least 13 answers are usable |
| Scores.ErrorsFromSound | utils/calculateScores.ts:186-190 | every collected error is the error of a dimension visited |
| Scores.ErrorsFromComplete | utils/calculateScores.ts:186-190 | the error of every dimension visited is collected |
| Scores.ErrorsFromOrdered | utils/calculateScores.ts:186-190 | the collected errors follow the fixed dimension order |
| Scores.ScoreAll | utils/calculateScores.ts:186-188 | every dimension is scored, each result is reported for its base letter, and its letter and error belong to that dimension |
| Scores.ScoreAllIsPerDimension | utils/calculateScores.ts:187-188 | the entry for each dimension is that dimension's own score |
| Scores.ErrorList | utils/calculateScores.ts:184-190 | the error list holds exactly the dimensions' errors, in dimension order |
| Scores.Compose | utils/calculateScores.ts:192-196 | a code exists exactly when all five letters do. It has six characters with a hyphen in fifth place, and each dimension's letter is at its position |
| Scores.DetailOf | utils/calculateScores.ts:199-221 | the entry is unavailable exactly when the percentage is null. Otherwise the first letter's share is the percentage when the base is the first letter and its complement when not, and the two shares add up to 100 |
| Scores.Details | utils/calculateScores.ts:198-221 | the same, for every dimension |
| Scores.ChartOf | utils/calculateScores.ts:224-237 | a chart entry has exactly the pair's two letters as keys. Both are null when the percentage is null; otherwise the base letter gets the percentage and the other letter its complement |
| Scores.ChartData | utils/calculateScores.ts:223-237 | the same, for every dimension |
| Scores.CalculateAllScores | utils/calculateScores.ts:178-246 | the composite result: every dimension scored; the code present exactly when all letters are; errors exactly those of the dimensions, in order; details and chart null exactly for unresolved dimensions. A detail's first share is the first letter's: the percentage when the base is the first letter, its complement otherwise, and the second share completes it to 100. The chart gives the base letter the percentage |
| Scores.ComposeBaseCode | utils/calculateScores.ts:192-196 | the code is `ENTJ-A` exactly when every dimension resolved to its base letter |
| Scores.BaseCodeSpellsBase | utils/calculateScores.ts:194-196 | reading `ENTJ-A` back gives every dimension its base letter |
| Scores.BaseLettersSpellCode | utils/calculateScores.ts:194-196 | five base letters compose to `ENTJ-A` |
| Scores.BaseCodeIffAllAtLeastHalf | utils/calculateScores.ts:151-196 | the composite code is `ENTJ-A` exactly when every dimension resolved with a percentage of at least 50 |
| BankValidation.QuestionDiagnostics | utils/calculateScores.ts:51-70 | a question gets no diagnostic exactly when it is well formed. An unknown dimension gives that one diagnostic alone. For a known dimension, a bad direction is flagged exactly when the direction is not a letter of the pair, and a reverse mismatch exactly when the flag disagrees with "direction is not the base letter". No other diagnostic appears, the direction diagnostic comes first, and every diagnostic names the question |
| BankValidation.ValidateQuestions | utils/calculateScores.ts:48-73 | at most two diagnostics per question |
| BankValidation.CleanIffWellFormed | utils/calculateScores.ts:48-73 | the bank passes exactly when every question is well formed |
| BankValidation.DiagnosticsNameBankQuestions | utils/calculateScores.ts:51-69 | every diagnostic names a question of the bank |
| BankValidation.UnknownDimensionReportedOnce | utils/calculateScores.ts:52-55 | a question with an unknown dimension contributes exactly one diagnostic, between those of the questions before and after it |
| BankValidation.ValidateSingle | utils/calculateScores.ts:51-70 | a one-question bank gets exactly that question's diagnostics |
| BankValidation.ValidateAppend | utils/calculateScores.ts:51-70 | the diagnostics of two banks joined are the diagnostics of each, in order |
| Runs.RunEnd | utils/shuffleQuestions.ts:97-103 | `endPos` is the first index at or after the start whose dimension differs, and every question before it shares the dimension |
| Runs.RunEndUnique | utils/shuffleQuestions.ts:97-103 | `endPos` is the only index with that description |
| Runs.RunStart | utils/shuffleQuestions.ts:210-220 | the first index of the run through a given question |
| Runs.MaximalRunUnique | utils/shuffleQuestions.ts:215-220 | a maximal run is determined by its start |
| Runs.MaximalRunsDisjoint | utils/shuffleQuestions.ts:210-238 | two maximal runs that share a question are the same run |
| Runs.MaximalRunThrough | utils/shuffleQuestions.ts:210-238 | every question lies in a maximal run. With `MaximalRunsDisjoint`, the runs the audit walks partition the order |
| Runs.RunEndCovers | utils/shuffleQuestions.ts:97-103 | the run end is at or past the end of every run starting at the same index |
| Runs.NoLongRunIffMaximalRunsShort | utils/shuffleQuestions.ts:34-54 | "no window of `k + 1` questions of one dimension" and "every maximal run is at most `k` long" are equivalent |
| Shuffling.Swap | utils/shuffleQuestions.ts:22 | the two positions are exchanged, every other position is unchanged, and the contents are a permutation |
| Shuffling.Pick | utils/shuffleQuestions.ts:21 | `Math.floor(Math.random() * (i + 1))` lies in [0, i] |
| Shuffling.FisherYates | utils/shuffleQuestions.ts:20-23 | the swap loop returns a permutation of its input |
| Shuffling.Shuffle | utils/shuffleQuestions.ts:18-25 | the shuffled copy is a permutation of the input |
| Sequencer.FindConsecutiveViolation | utils/shuffleQuestions.ts:30-54 | null exactly when no run exceeds the limit. Otherwise the violation reports the first position where one starts, its dimension, and the count at which the scan stopped (limit + 1) |
| Sequencer.CheckLocalViolations | utils/shuffleQuestions.ts:59-86 | true exactly when some given position has a run of more than `k` questions starting at most `k` places before it |
| Sequencer.LocalCheckOfPair | utils/shuffleQuestions.ts:110-111 | the check of the pair `[endPos - 1, i]` passes exactly when neither position has a local run |
| Sequencer.FixViolation | utils/shuffleQuestions.ts:91-138 | the result is a permutation. On failure nothing changes and no candidate was acceptable. On success the run's last question was swapped with the first acceptable candidate in the order tried (far side ascending, then near side), and the run now ends one question earlier |
| Sequencer.TrySwap | utils/shuffleQuestions.ts:106-117 | a candidate passes exactly when it has another dimension and, after the swap, neither swapped position is covered by a run of three, and then the swapped copy is returned |
| Sequencer.FarPartner | utils/shuffleQuestions.ts:105-119 | the first acceptable candidate at least three past the run's end, in ascending order, or none when no candidate there is acceptable |
| Sequencer.NearPartner | utils/shuffleQuestions.ts:121-135 | the first acceptable candidate more than three before the run's start, in ascending order, or none when no candidate there is acceptable |
| Sequencer.RepairShortensRun | utils/shuffleQuestions.ts:105-135 | swapping the run's last question with a candidate of another dimension shortens the run by one |
| Sequencer.RepairShuffle | utils/shuffleQuestions.ts:155-171 | the repaired order is a permutation of the shuffle, and it has no long run when the scan came back null. A shuffle that is already clean is returned as it was, with `done` |
| Sequencer.ShuffleAndRepair | utils/shuffleQuestions.ts:153-171 | one attempt returns a permutation of the bank, clean when `done`. A fresh shuffle that is already clean is returned as drawn |
| Sequencer.RetryShuffles | utils/shuffleQuestions.ts:148-172 | the attempt loop returns a clean permutation after between 1 and `maxAttempts` shuffles, or reports that all attempts were used. If the first shuffle is already clean and `maxAttempts` is at least 1, it is that shuffle |
| Sequencer.RetryFrom | utils/shuffleQuestions.ts:150-172 | the attempts left after some have failed end clean within `maxAttempts` shuffles, or consume the draws of all of them |
| Sequencer.FreshShuffle | utils/shuffleQuestions.ts:177 | the fallback is a plain shuffle read where the attempt loop stopped, which is after the draws of every attempt, and it consumes one shuffle's draws |
| Sequencer.ShuffleQuestions | utils/shuffleQuestions.ts:143-178 | the result is always a permutation of the bank. Without the warning it has no long run and used at most `maxAttempts` shuffles. With the warning it is a plain fresh shuffle drawn after all attempts. When `maxAttempts` is at least 1 and the first shuffle is already clean, that shuffle is returned with no warning |
| OrderStats.CountDimensions | utils/shuffleQuestions.ts:205-208 | `dimensionCounts` has exactly the dimensions present as keys, each mapped to its number of questions |
| OrderStats.AbsentNotCounted | utils/shuffleQuestions.ts:205-208 | a dimension that does not occur has count zero |
| OrderStats.OccurrencesAppend | utils/shuffleQuestions.ts:205-208 | counting distributes over concatenation |
| OrderStats.CountedIffOccurs | utils/shuffleQuestions.ts:205-208 | a dimension has a positive count exactly when it occurs |
| OrderStats.OccurrencesPermutation | utils/shuffleQuestions.ts:205-208 | rearranging the questions keeps every dimension's count |
| OrderStats.CountsPermutationInvariant | utils/shuffleQuestions.ts:205-208 | any two orders of the same questions get the same `dimensionCounts`, so shuffling never changes them |
| OrderStats.CountsSumToTotal | utils/shuffleQuestions.ts:198-208 | `dimensionCounts` adds up to `totalQuestions` |
| OrderStats.RunLength | utils/shuffleQuestions.ts:212-220 | the inner loop measures the maximal run starting at a run boundary |
| OrderStats.RecordLongest | utils/shuffleQuestions.ts:222-227 | the update keeps `maxConsecutiveByDimension` the longest run of each dimension seen so far |
| OrderStats.RecordViolation | utils/shuffleQuestions.ts:229-235 | the update keeps `violations` the list of runs longer than `k` seen so far |
| OrderStats.RecordRun | utils/shuffleQuestions.ts:211-237 | one step moves from a run boundary to the next and keeps both invariants |
| OrderStats.WalkRuns | utils/shuffleQuestions.ts:210-238 | after the walk, `maxConsecutiveByDimension` maps each present dimension to its longest run. `violations` lists exactly the maximal runs longer than `k`, each once, by increasing position |
| OrderStats.ValidIffNoViolations | utils/shuffleQuestions.ts:240 | the violation list is empty exactly when no run is longer than `k` |
| OrderStats.FirstWindowIsFirstViolation | utils/shuffleQuestions.ts:34-54 | the first window the scan meets is the first violation the audit lists |
| OrderStats.ValidateShuffledOrder | utils/shuffleQuestions.ts:183-243 | the statistics: the total, exact per-dimension counts, exact longest runs, exactly the violating maximal runs in order, and `isValid` exactly when no run is longer than `k` |

## Left out

* Wording, labels and rounding. The model has no Korean message or label
  texts, and no `toFixed(1)` rounding in `details` and `chartData`. Chart
  values are the unrounded percentages, and details keep only the two
  shares.
* Floating point. Percentages are exact reals, so cases where IEEE rounding
  would land a value just beside 50 are not modelled.
* Non-numeric responses and ±Infinity. A response is a finite number or
  NaN. Infinity would fail `clampScore`'s range test like any out-of-range
  number.
* A non-boolean `isReverse`. The field is always a boolean in the model, so
  the `typeof` guard of the reverse-flag check always passes.
* Dimension keys outside the five in `calculateDimensionScore`. The
  aggregator only ever calls it with the five known keys, so its
  `dimension` parameter is typed as one of them.
* Options. `minAnswered` and `maxAttempts` are integers, so negative
  values are modelled as the source treats them: a negative `maxAttempts`
  makes no attempt and goes straight to the warning fallback. Fractional
  limits are not modelled, and neither is a negative `maxConsecutive`,
  which is a natural number `k` in the model.
* Key order of `chartData[d]` and `details`. The source's plain objects
  carry an insertion order that the app reads: the first and second keys
  of a chart entry, and the values of `details`. The model's maps are
  unordered. The order is implied, not represented: the pair's first
  letter, then its second, and dimensions in `DIMENSIONS` order.
* The distribution of `Math.random`. The shuffle is modelled over an
  arbitrary oracle, so nothing is stated about uniformity.
* Sequencer.ShuffleQuestions: on the success path the result is described
  by its properties (a permutation with no long run). It is not described
  as the exact sequence of repairs applied to a particular shuffle. The
  warning is ruled out only when the first shuffle is already clean. When
  repairs or a later attempt would succeed, nothing states that the
  warning is avoided.
* Sequencer.RepairShuffle: a repair that fails or runs out (`done` false)
  is described only as a permutation of the shuffle. `done` is promised
  only for a shuffle that is already clean, not for one the repairs would
  make clean.
* OrderStats.CountDimensions: `dimensionCounts` is a plain JavaScript
  object. A dimension named after an inherited property (`constructor`,
  `toString`, `__proto__`) would read that property, not a missing key, so
  the source's count goes wrong for such names. The model keeps exact
  counts for every string. The five dimension keys are not such names.
* OrderStats.RecordLongest: the same holds for `maxConsecutiveByDimension`.
  There `count > fn` is false for an inherited function. The model records
  the exact longest run for every string.
* OrderStats.ValidateShuffledOrder: its two maps carry the two caveats
  above. The violations and `isValid` do not depend on them.
* The user interface, the API routes, the LLM calls and the question bank
  data are not part of this model.

=== FILE: bank.dfy ===
/** The question-bank integrity check: diagnostics for questions whose
    dimension is unknown, whose direction is not a letter of their pair, or
    whose advisory reverse flag disagrees with direction and base letter. */
module BankValidation {
  import opened Questions

  /** The diagnostics, without their wording. */
  datatype Diagnostic =
    | UnknownDimension(id: int, dimension: string)
    | UnknownDirection(id: int, direction: string)
    | ReverseMismatch(id: int, dimension: string, base: string, direction: string)
  {
    function QuestionId(): int {
      match this
      case UnknownDimension(id, _) => id
      case UnknownDirection(id, _) => id
      case ReverseMismatch(id, _, _, _) => id
    }
  }

  /** A question the bank may hold: a known dimension, a direction from its
      pair, and a reverse flag that says whether the direction is not the
      base letter. */
  predicate WellFormed(q: Question) {
    exists d: Dim :: Name(d) == q.dimension && InPair(d, q.direction)
                     && q.isReverse == (q.direction != Base(d))
  }

  /** The diagnostics for one question, in the order they are pushed. */
  function QuestionDiagnostics(q: Question): (ds: seq<Diagnostic>)
    ensures |ds| <= 2
    ensures ParseDim(q.dimension).None? ==> ds == [UnknownDimension(q.id, q.dimension)]
    ensures ds == [] <==> WellFormed(q)
    ensures forall k :: 0 <= k < |ds| ==> ds[k].QuestionId() == q.id
    // a known dimension: each defect is flagged by its own diagnostic and by
    // nothing else, the direction first
    ensures ParseDim(q.dimension).Some? ==>
              var d := ParseDim(q.dimension).value;
              && (UnknownDirection(q.id, q.direction) in ds <==> !InPair(d, q.direction))
              && ((ReverseMismatch(q.id, q.dimension, Base(d), q.direction) in ds) <==>
                  q.isReverse != (q.direction != Base(d)))
              && (forall k :: 0 <= k < |ds| ==>
                    ds[k] == UnknownDirection(q.id, q.direction)
                    || ds[k] == ReverseMismatch(q.id, q.dimension, Base(d), q.direction))
              && (|ds| == 2 ==> ds[0].UnknownDirection? && ds[1].ReverseMismatch?)
  {
    match ParseDim(q.dimension)
    case None => [UnknownDimension(q.id, q.dimension)]
    case Some(d) =>
      var base := Base(d);
      var shouldBeReverse := q.direction != base;
      PairsWellFormed(d, d);
      (if !InPair(d, q.direction) then [UnknownDirection(q.id, q.direction)] else [])
      + (if q.isReverse != shouldBeReverse then [ReverseMismatch(q.id, q.dimension, base, q.direction)] else [])
  }

  /** All diagnostics of the bank, question by question in bank order. */
  function ValidateQuestions(qs: seq<Question>): (ds: seq<Diagnostic>)
    ensures |ds| <= 2 * |qs|
  {
    if |qs| == 0 then []
    else QuestionDiagnostics(qs[0]) + ValidateQuestions(qs[1..])
  }

  /** The bank passes validation exactly when every question is well formed. */
  lemma {:induction false} CleanIffWellFormed(qs: seq<Question>)
    ensures ValidateQuestions(qs) == [] <==> forall i :: 0 <= i < |qs| ==> WellFormed(qs[i])
  {
    if |qs| > 0 {
      CleanIffWellFormed(qs[1..]);
      assert forall i :: 0 <= i < |qs[1..]| ==> qs[1..][i] == qs[i + 1];
      if forall i :: 0 <= i < |qs| ==> WellFormed(qs[i]) {
        assert WellFormed(qs[0]);
      } else {
        var i :| 0 <= i < |qs| && !WellFormed(qs[i]);
        if i > 0 {
          assert !WellFormed(qs[1..][i - 1]);
        }
      }
    }
  }

  /** Every diagnostic names a question of the bank. */
  lemma {:induction false} DiagnosticsNameBankQuestions(qs: seq<Question>)
    ensures forall k :: 0 <= k < |ValidateQuestions(qs)| ==>
      exists i :: 0 <= i < |qs| && ValidateQuestions(qs)[k].QuestionId() == qs[i].id
  {
    if |qs| > 0 {
      DiagnosticsNameBankQuestions(qs[1..]);
      var mine: seq<Diagnostic> := QuestionDiagnostics(qs[0]);
      var rest: seq<Diagnostic> := ValidateQuestions(qs[1..]);
      var all: seq<Diagnostic> := mine + rest;
      assert ValidateQuestions(qs) == all;
      forall k | 0 <= k < |mine + rest|
        ensures exists i :: 0 <= i < |qs| && all[k].QuestionId() == qs[i].id
      {
        if k < |mine| {
          assert all[k].QuestionId() == qs[0].id;
        } else {
          var i :| 0 <= i < |qs[1..]| && rest[k - |mine|].QuestionId() == qs[1..][i].id;
          assert all[k].QuestionId() == qs[i + 1].id;
        }
      }
    } else {
      assert ValidateQuestions(qs) == [];
    }
  }

  /** A question with an unknown dimension yields exactly one diagnostic,
      wherever it sits in the bank, and nothing else is checked for it. */
  lemma {:induction false} UnknownDimensionReportedOnce(qs: seq<Question>, i: nat)
    requires i < |qs|
    requires ParseDim(qs[i].dimension).None?
    ensures ValidateQuestions(qs) ==
            ValidateQuestions(qs[..i]) + [UnknownDimension(qs[i].id, qs[i].dimension)]
            + ValidateQuestions(qs[i + 1..])
  {
    var q := qs[i];
    var rest := qs[i + 1..];
    assert qs == qs[..i] + ([q] + rest);
    ValidateAppend(qs[..i], [q] + rest);
    ValidateAppend([q], rest);
    ValidateSingle(q);
  }

  /** A bank of one question gets exactly that question's diagnostics. */
  lemma ValidateSingle(q: Question)
    ensures ValidateQuestions([q]) == QuestionDiagnostics(q)
  {
    assert [q][1..] == [];
  }

  /** Validation distributes over concatenation of banks. */
  lemma {:induction false} ValidateAppend(a: seq<Question>, b: seq<Question>)
    ensures ValidateQuestions(a + b) == ValidateQuestions(a) + ValidateQuestions(b)
  {
    if |a| == 0 {
      assert a + b == b;
    } else {
      assert (a + b)[1..] == a[1..] + b;
      ValidateAppend(a[1..], b);
    }
  }
}

=== FILE: order_stats.dfy ===
/** The audit of a question order: how many questions each dimension has,
    the longest run of each dimension, and every maximal run longer than the
    limit. */
module OrderStats {
  import opened Questions
  import opened Runs

  /** The audit's result. The two maps stand for the source's plain objects
      keyed by dimension name, read as own keys only: a key that names an
      inherited object property is treated like any other string. */
  datatype Stats = Stats(
    totalQuestions: nat,
    dimensionCounts: map<string, nat>,
    maxConsecutiveByDimension: map<string, nat>,
    violations: seq<Violation>,
    isValid: bool)

  /** How many questions of `qs` have dimension `d`. */
  function Occurrences(qs: seq<Question>, d: string): (n: nat)
    ensures n <= |qs|
  {
    if |qs| == 0 then 0
    else Occurrences(qs[..|qs| - 1], d) + (if qs[|qs| - 1].dimension == d then 1 else 0)
  }

  /** Some question among the first `i` has dimension `d`. */
  predicate OccursBefore(qs: seq<Question>, i: int, d: string) {
    exists t :: 0 <= t < i && t < |qs| && qs[t].dimension == d
  }

  /** `counts` holds, for each dimension among the first `i` questions and
      for no other, how often it occurs there. */
  ghost predicate CountsUpTo(qs: seq<Question>, i: nat, counts: map<string, nat>)
    requires i <= |qs|
  {
    && (forall d :: d in counts <==> OccursBefore(qs, i, d))
    && (forall d :: d in counts ==> counts[d] == Occurrences(qs[..i], d))
  }

  /** `len` is the length of the longest maximal run of `d` starting before
      `i`. */
  ghost predicate LongestBefore(qs: seq<Question>, i: int, d: string, len: nat) {
    && (exists s :: 0 <= s < i && MaximalRunAt(qs, s, len) && qs[s].dimension == d)
    && (forall s, l: nat :: 0 <= s < i && MaximalRunAt(qs, s, l) && qs[s].dimension == d ==> l <= len)
  }

  /** `m` holds the longest run of each dimension among the runs starting
      before `i`, and nothing else. */
  ghost predicate LongestUpTo(qs: seq<Question>, i: int, m: map<string, nat>) {
    && (forall d :: d in m <==> OccursBefore(qs, i, d))
    && (forall d :: d in m ==> LongestBefore(qs, i, d, m[d]))
  }

  /** `vs` lists the maximal runs longer than `k` that start before `i`, each
      once, by increasing position. */
  ghost predicate ViolationsUpTo(qs: seq<Question>, i: int, k: nat, vs: seq<Violation>) {
    && (forall t :: 0 <= t < |vs| ==>
          && vs[t].position < i
          && MaximalRunAt(qs, vs[t].position, vs[t].consecutiveCount)
          && vs[t].consecutiveCount > k
          && vs[t].dimension == qs[vs[t].position].dimension)
    && (forall s, len: nat :: 0 <= s < i && MaximalRunAt(qs, s, len) && len > k ==>
          exists t :: 0 <= t < |vs| && vs[t].position == s)
    && (forall t, u :: 0 <= t < u < |vs| ==> vs[t].position < vs[u].position)
  }

  /** The per-dimension counts, question by question. */
  method CountDimensions(qs: seq<Question>) returns (counts: map<string, nat>)
    ensures CountsUpTo(qs, |qs|, counts)
  {
    counts := map[];
    var i := 0;
    while i < |qs|
      invariant 0 <= i <= |qs|
      invariant CountsUpTo(qs, i, counts)
    {
      var d := qs[i].dimension;
      var before := if d in counts then counts[d] else 0;
      assert qs[..i + 1][..i] == qs[..i];
      assert !OccursBefore(qs, i, d) ==> Occurrences(qs[..i], d) == 0 by {
        if !OccursBefore(qs, i, d) {
          AbsentNotCounted(qs[..i], d);
        }
      }
      counts := counts[d := before + 1];
      i := i + 1;
    }
    assert qs[..|qs|] == qs;
  }

  /** A dimension that does not occur is counted zero times. */
  lemma {:induction false} AbsentNotCounted(qs: seq<Question>, d: string)
    requires forall t :: 0 <= t < |qs| ==> qs[t].dimension != d
    ensures Occurrences(qs, d) == 0
  {
    if |qs| > 0 {
      AbsentNotCounted(qs[..|qs| - 1], d);
    }
  }

  /** Counting distributes over concatenation. */
  lemma {:induction false} OccurrencesAppend(a: seq<Question>, b: seq<Question>, d: string)
    ensures Occurrences(a + b, d) == Occurrences(a, d) + Occurrences(b, d)
  {
    if |b| == 0 {
      assert a + b == a;
    } else {
      assert (a + b)[..|a + b| - 1] == a + b[..|b| - 1];
      OccurrencesAppend(a, b[..|b| - 1], d);
    }
  }

  /** A dimension is counted at least once exactly when it occurs. */
  lemma {:induction false} CountedIffOccurs(qs: seq<Question>, d: string)
    ensures Occurrences(qs, d) > 0 <==> OccursBefore(qs, |qs|, d)
  {
    if |qs| > 0 {
      var init := qs[..|qs| - 1];
      CountedIffOccurs(init, d);
      if OccursBefore(qs, |qs|, d) && qs[|qs| - 1].dimension != d {
        var t :| 0 <= t < |qs| && qs[t].dimension == d;
        assert init[t].dimension == d;
      }
      if OccursBefore(init, |init|, d) {
        var t :| 0 <= t < |init| && init[t].dimension == d;
        assert qs[t].dimension == d;
      }
    }
  }

  /** Rearranging questions does not change how often a dimension occurs. */
  lemma {:induction false} OccurrencesPermutation(a: seq<Question>, b: seq<Question>, d: string)
    requires multiset(a) == multiset(b)
    ensures Occurrences(a, d) == Occurrences(b, d)
    decreases |a|
  {
    if |a| == 0 {
      assert |b| == |multiset(b)| == 0;
    } else {
      var x := a[|a| - 1];
      assert x in multiset(b);
      var j :| 0 <= j < |b| && b[j] == x;
      var rest := RemoveAt(a, b, j);
      OccurrencesPermutation(a[..|a| - 1], rest, d);
      OccurrencesRemoveAt(b, j, d);
    }
  }

  /** Taking the last question of `a` out of `b` at `j` keeps the two
      multisets equal. */
  lemma RemoveAt(a: seq<Question>, b: seq<Question>, j: nat) returns (rest: seq<Question>)
    requires multiset(a) == multiset(b) && |a| > 0 && j < |b| && b[j] == a[|a| - 1]
    ensures rest == b[..j] + b[j + 1..]
    ensures multiset(a[..|a| - 1]) == multiset(rest)
  {
    var x := a[|a| - 1];
    rest := b[..j] + b[j + 1..];
    assert b == b[..j] + [x] + b[j + 1..];
    assert a == a[..|a| - 1] + [x];
    calc {
      multiset(a[..|a| - 1]);
      multiset(a[..|a| - 1]) + multiset{x} - multiset{x};
      multiset(b[..j] + [x] + b[j + 1..]) - multiset{x};
      multiset(b[..j]) + multiset(b[j + 1..]) + multiset{x} - multiset{x};
      multiset(rest);
    }
  }

  /** Removing the question at `j` lowers its dimension's count by one. */
  lemma OccurrencesRemoveAt(b: seq<Question>, j: nat, d: string)
    requires j < |b|
    ensures Occurrences(b, d) == Occurrences(b[..j] + b[j + 1..], d) + (if b[j].dimension == d then 1 else 0)
  {
    assert b == b[..j] + [b[j]] + b[j + 1..];
    OccurrencesAppend(b[..j] + [b[j]], b[j + 1..], d);
    OccurrencesAppend(b[..j], [b[j]], d);
    OccurrencesAppend(b[..j], b[j + 1..], d);
    assert [b[j]][..0] == [];
  }

  /** Any two orders of the same questions get the same `dimensionCounts`;
      in particular a shuffle does not change them. */
  lemma CountsPermutationInvariant(a: seq<Question>, b: seq<Question>, ca: map<string, nat>, cb: map<string, nat>)
    requires multiset(a) == multiset(b)
    requires CountsUpTo(a, |a|, ca) && CountsUpTo(b, |b|, cb)
    ensures ca == cb
  {
    assert a[..|a|] == a && b[..|b|] == b;
    forall d ensures d in ca <==> d in cb {
      OccurrencesPermutation(a, b, d);
      CountedIffOccurs(a, d);
      CountedIffOccurs(b, d);
    }
    forall d | d in ca ensures ca[d] == cb[d] {
      OccurrencesPermutation(a, b, d);
    }
  }

  /** The sum of a map's values. */
  ghost function Total(m: map<string, nat>): nat
    decreases |m.Keys|
  {
    if m == map[] then 0
    else
      var d :| d in m.Keys;
      assert |(m - {d}).Keys| < |m.Keys| by { assert (m - {d}).Keys == m.Keys - {d}; }
      m[d] + Total(m - {d})
  }

  /** The sum does not depend on which key is taken first. */
  lemma {:induction false} TotalRemove(m: map<string, nat>, d: string)
    requires d in m
    ensures Total(m) == m[d] + Total(m - {d})
    decreases |m.Keys|
  {
    var e :| e in m.Keys && Total(m) == m[e] + Total(m - {e});
    if e != d {
      assert (m - {e}).Keys == m.Keys - {e};
      assert (m - {d}).Keys == m.Keys - {d};
      TotalRemove(m - {e}, d);
      TotalRemove(m - {d}, e);
      assert m - {e} - {d} == m - {d} - {e};
    }
  }

  /** The counts of the first `i - 1` questions, from those of the first
      `i`: one fewer for the dimension of question `i - 1`. */
  lemma CountsOfInit(qs: seq<Question>, i: nat, counts: map<string, nat>) returns (m: map<string, nat>)
    requires 0 < i <= |qs|
    requires CountsUpTo(qs, i, counts)
    ensures CountsUpTo(qs, i - 1, m)
    ensures var d := qs[i - 1].dimension;
            && d in counts
            && (d in m ==> m - {d} == counts - {d} && m[d] + 1 == counts[d])
            && (d !in m ==> m == counts - {d} && counts[d] == 1)
  {
    var d := qs[i - 1].dimension;
    var init := qs[..i - 1];
    assert qs[..i][..i - 1] == init;
    assert OccursBefore(qs, i, d);
    m := if Occurrences(init, d) == 0 then counts - {d} else counts[d := counts[d] - 1];
    CountedIffOccurs(init, d);
    forall e ensures e in m <==> OccursBefore(qs, i - 1, e) {
      if e == d {
        assert OccursBefore(qs, i - 1, e) <==> OccursBefore(init, |init|, e);
      } else if OccursBefore(qs, i, e) {
        var t :| 0 <= t < i && t < |qs| && qs[t].dimension == e;
        assert t < i - 1;
      }
    }
    assert forall e :: e in m ==> m[e] == Occurrences(init, e);
  }

  /** The per-dimension counts of the first `i` questions add up to `i`. */
  lemma {:induction false} CountsSumTo(qs: seq<Question>, i: nat, counts: map<string, nat>)
    requires i <= |qs|
    requires CountsUpTo(qs, i, counts)
    ensures Total(counts) == i
  {
    if i == 0 {
      assert counts == map[];
    } else {
      var d := qs[i - 1].dimension;
      var m := CountsOfInit(qs, i, counts);
      CountsSumTo(qs, i - 1, m);
      TotalRemove(counts, d);
      if d in m {
        TotalRemove(m, d);
      }
    }
  }

  /** `dimensionCounts` adds up to `totalQuestions`. */
  lemma CountsSumToTotal(qs: seq<Question>, counts: map<string, nat>)
    requires CountsUpTo(qs, |qs|, counts)
    ensures Total(counts) == |qs|
  {
    CountsSumTo(qs, |qs|, counts);
  }

  /** Inside a maximal run no other maximal run starts. */
  lemma NoRunStartsInside(qs: seq<Question>, i: nat, count: nat)
    requires MaximalRunAt(qs, i, count)
    ensures forall s, l: nat :: i < s < i + count ==> !MaximalRunAt(qs, s, l)
  {
    forall s, l: nat | i < s < i + count
      ensures !MaximalRunAt(qs, s, l)
    {
      assert qs[s - 1].dimension == qs[i].dimension == qs[s].dimension;
    }
  }

  /** Walking one maximal run keeps the longest-run map exact. */
  lemma LongestStep(qs: seq<Question>, i: nat, count: nat, before: map<string, nat>, after: map<string, nat>)
    requires MaximalRunAt(qs, i, count)
    requires LongestUpTo(qs, i, before)
    requires var d := qs[i].dimension;
             after == if d !in before || before[d] == 0 || count > before[d] then before[d := count] else before
    ensures LongestUpTo(qs, i + count, after)
  {
    LongestKeysStep(qs, i, count, before, after);
    LongestValuesStep(qs, i, count, before, after);
  }

  /** The map gains exactly the run's dimension as a key. */
  lemma LongestKeysStep(qs: seq<Question>, i: nat, count: nat, before: map<string, nat>, after: map<string, nat>)
    requires MaximalRunAt(qs, i, count)
    requires forall e :: e in before <==> OccursBefore(qs, i, e)
    requires var d := qs[i].dimension;
             after == if d !in before || before[d] == 0 || count > before[d] then before[d := count] else before
    ensures forall e :: e in after <==> OccursBefore(qs, i + count, e)
  {
    var d := qs[i].dimension;
    forall e ensures e in after <==> OccursBefore(qs, i + count, e) {
      if OccursBefore(qs, i + count, e) && e != d {
        var t :| 0 <= t < i + count && t < |qs| && qs[t].dimension == e;
        assert t < i;
      }
      if e == d {
        assert qs[i].dimension == e;
      }
    }
  }

  /** Each recorded length stays the longest run of its dimension. */
  lemma LongestValuesStep(qs: seq<Question>, i: nat, count: nat, before: map<string, nat>, after: map<string, nat>)
    requires MaximalRunAt(qs, i, count)
    requires forall e :: e in before <==> OccursBefore(qs, i, e)
    requires forall e :: e in before ==> LongestBefore(qs, i, e, before[e])
    requires var d := qs[i].dimension;
             after == if d !in before || before[d] == 0 || count > before[d] then before[d := count] else before
    ensures forall e :: e in after ==> LongestBefore(qs, i + count, e, after[e])
  {
    var d := qs[i].dimension;
    NoRunStartsInside(qs, i, count);
    forall e | e in after ensures LongestBefore(qs, i + count, e, after[e]) {
      forall s, l: nat | 0 <= s < i + count && MaximalRunAt(qs, s, l) && qs[s].dimension == e
        ensures l <= after[e]
      {
        if s == i {
          MaximalRunUnique(qs, i, l, count);
        } else {
          assert OccursBefore(qs, i, e) by { assert qs[s].dimension == e; }
        }
      }
      if e == d && after[e] == count {
        assert MaximalRunAt(qs, i, count);
      }
    }
  }

  /** Walking one maximal run keeps the violation list exact. */
  lemma ViolationsStep(qs: seq<Question>, i: nat, count: nat, k: nat, before: seq<Violation>, after: seq<Violation>)
    requires MaximalRunAt(qs, i, count)
    requires ViolationsUpTo(qs, i, k, before)
    requires after == if count > k then before + [Violation(i, qs[i].dimension, count)] else before
    ensures ViolationsUpTo(qs, i + count, k, after)
  {
    ListedRunsStep(qs, i, count, k, before, after);
    UnlistedRunsStep(qs, i, count, k, before, after);
    forall t, u | 0 <= t < u < |after| ensures after[t].position < after[u].position {
      assert after[t] == before[t];
      if u < |before| {
        assert after[u] == before[u];
      }
    }
  }

  /** Every entry of the extended list is a maximal run longer than `k`. */
  lemma ListedRunsStep(qs: seq<Question>, i: nat, count: nat, k: nat, before: seq<Violation>, after: seq<Violation>)
    requires MaximalRunAt(qs, i, count)
    requires ViolationsUpTo(qs, i, k, before)
    requires after == if count > k then before + [Violation(i, qs[i].dimension, count)] else before
    ensures forall t :: 0 <= t < |after| ==>
              && after[t].position < i + count
              && MaximalRunAt(qs, after[t].position, after[t].consecutiveCount)
              && after[t].consecutiveCount > k
              && after[t].dimension == qs[after[t].position].dimension
  {
    forall t | 0 <= t < |after|
      ensures && after[t].position < i + count
              && MaximalRunAt(qs, after[t].position, after[t].consecutiveCount)
              && after[t].consecutiveCount > k
              && after[t].dimension == qs[after[t].position].dimension
    {
      if t < |before| {
        assert after[t] == before[t];
      }
    }
  }

  /** No maximal run longer than `k` that starts before `i + count` is
      missing from the extended list. */
  lemma UnlistedRunsStep(qs: seq<Question>, i: nat, count: nat, k: nat, before: seq<Violation>, after: seq<Violation>)
    requires MaximalRunAt(qs, i, count)
    requires ViolationsUpTo(qs, i, k, before)
    requires after == if count > k then before + [Violation(i, qs[i].dimension, count)] else before
    ensures forall s, len: nat :: 0 <= s < i + count && MaximalRunAt(qs, s, len) && len > k ==>
              exists t :: 0 <= t < |after| && after[t].position == s
  {
    NoRunStartsInside(qs, i, count);
    forall s, len: nat | 0 <= s < i + count && MaximalRunAt(qs, s, len) && len > k
      ensures exists t :: 0 <= t < |after| && after[t].position == s
    {
      if s == i {
        MaximalRunUnique(qs, i, len, count);
        assert after[|after| - 1].position == s;
      } else {
        var t :| 0 <= t < |before| && before[t].position == s;
        assert after[t] == before[t];
      }
    }
  }

  /** The length of the run that starts at the run boundary `i`. */
  method RunLength(qs: seq<Question>, i: nat) returns (count: nat)
    requires i < |qs| && (i == 0 || qs[i - 1].dimension != qs[i].dimension)
    ensures MaximalRunAt(qs, i, count)
  {
    var dimension := qs[i].dimension;
    count := 1;
    while i + count < |qs| && qs[i + count].dimension == dimension
      invariant 1 <= count && i + count <= |qs|
      invariant Run(qs, i, count)
    {
      count := count + 1;
    }
  }

  /** A complete violation list is empty exactly when no run is longer than
      `k`. */
  lemma ValidIffNoViolations(qs: seq<Question>, k: nat, vs: seq<Violation>)
    requires ViolationsUpTo(qs, |qs|, k, vs)
    ensures |vs| == 0 <==> NoLongRun(qs, k)
  {
    NoLongRunIffMaximalRunsShort(qs, k);
    if |vs| == 0 {
      forall s, len: nat | MaximalRunAt(qs, s, len) ensures len <= k {
        assert 0 <= s < |qs|;
      }
    } else {
      assert MaximalRunAt(qs, vs[0].position, vs[0].consecutiveCount);
    }
  }

  /** The first window of `k + 1` that a left-to-right scan meets starts the
      first maximal run the audit lists: the scan and the audit report the
      same first offending position. */
  lemma FirstWindowIsFirstViolation(qs: seq<Question>, k: nat, p: nat, vs: seq<Violation>)
    requires LongRunAt(qs, p, k)
    requires forall i :: 0 <= i < p ==> !LongRunAt(qs, i, k)
    requires ViolationsUpTo(qs, |qs|, k, vs)
    ensures |vs| > 0 && vs[0].position == p
  {
    var s := RunStart(qs, p);
    var e := RunEnd(qs, p, qs[p].dimension);
    MaximalRunThrough(qs, p);
    RunEndCovers(qs, p, k + 1);
    if s < p {
      assert LongRunAt(qs, s, k) by {
        assert forall t :: s <= t < s + k + 1 ==> qs[t].dimension == qs[p].dimension;
      }
    }
    assert s == p && MaximalRunAt(qs, p, e - p) && e - p > k;
    var t :| 0 <= t < |vs| && vs[t].position == p;
    assert LongRunAt(qs, vs[0].position, k);
    if t > 0 {
      assert vs[0].position < vs[t].position;
    }
  }

  /** The statistics of a question order: `dimensionCounts` counts each
      dimension, `maxConsecutiveByDimension` is each dimension's longest run,
      `violations` lists every maximal run longer than `k` by position, and
      the order is valid exactly when no run is longer than `k`. */
  method ValidateShuffledOrder(qs: seq<Question>, k: nat) returns (r: Stats)
    ensures r.totalQuestions == |qs|
    ensures CountsUpTo(qs, |qs|, r.dimensionCounts)
    ensures LongestUpTo(qs, |qs|, r.maxConsecutiveByDimension)
    ensures ViolationsUpTo(qs, |qs|, k, r.violations)
    ensures r.isValid <==> NoLongRun(qs, k)
  {
    var counts := CountDimensions(qs);
    var longest, violations := WalkRuns(qs, k);
    ValidIffNoViolations(qs, k, violations);
    r := Stats(|qs|, counts, longest, violations, |violations| == 0);
  }

  /** The walk over the maximal runs, from one run boundary to the next,
      recording each dimension's longest run and each run longer than `k`. */
  method WalkRuns(qs: seq<Question>, k: nat) returns (longest: map<string, nat>, violations: seq<Violation>)
    ensures LongestUpTo(qs, |qs|, longest)
    ensures ViolationsUpTo(qs, |qs|, k, violations)
  {
    longest := map[];
    violations := [];
    var i := 0;
    while i < |qs|
      invariant 0 <= i <= |qs|
      invariant i == 0 || i == |qs| || qs[i - 1].dimension != qs[i].dimension
      invariant LongestUpTo(qs, i, longest)
      invariant ViolationsUpTo(qs, i, k, violations)
      decreases |qs| - i
    {
      i, longest, violations := RecordRun(qs, i, k, longest, violations);
    }
  }

  /** One step of the walk: measure the run at boundary `i`, raise its
      dimension's longest run if this one is longer, and list it if it is
      longer than `k`. */
  method RecordRun(qs: seq<Question>, i: nat, k: nat, longest: map<string, nat>, violations: seq<Violation>)
    returns (next: nat, longest': map<string, nat>, violations': seq<Violation>)
    requires i < |qs| && (i == 0 || qs[i - 1].dimension != qs[i].dimension)
    requires LongestUpTo(qs, i, longest)
    requires ViolationsUpTo(qs, i, k, violations)
    ensures i < next <= |qs| && (next == |qs| || qs[next - 1].dimension != qs[next].dimension)
    ensures LongestUpTo(qs, next, longest')
    ensures ViolationsUpTo(qs, next, k, violations')
  {
    var count := RunLength(qs, i);
    next := i + count;
    longest' := RecordLongest(qs, i, count, longest);
    violations' := RecordViolation(qs, i, count, k, violations);
  }

  /** Raise the run's dimension to `count` if it is unset or shorter. */
  method RecordLongest(qs: seq<Question>, i: nat, count: nat, longest: map<string, nat>)
    returns (longest': map<string, nat>)
    requires MaximalRunAt(qs, i, count)
    requires LongestUpTo(qs, i, longest)
    ensures LongestUpTo(qs, i + count, longest')
  {
    var dimension := qs[i].dimension;
    longest' := longest;
    if dimension !in longest || longest[dimension] == 0 || count > longest[dimension] {
      longest' := longest[dimension := count];
    }
    LongestStep(qs, i, count, longest, longest');
  }

  /** List the run if it is longer than `k`. */
  method RecordViolation(qs: seq<Question>, i: nat, count: nat, k: nat, violations: seq<Violation>)
    returns (violations': seq<Violation>)
    requires MaximalRunAt(qs, i, count)
    requires ViolationsUpTo(qs, i, k, violations)
    ensures ViolationsUpTo(qs, i + count, k, violations')
  {
    violations' := violations;
    if count > k {
      violations' := violations + [Violation(i, qs[i].dimension, count)];
    }
    ViolationsStep(qs, i, count, k, violations, violations');
  }
}

=== FILE: questions.dfy ===
/** The question bank's data model shared by the scoring engine and the
    question sequencer: the five personality dimensions, their letter pairs
    and base letters, questions, and the JavaScript numbers the scoring
    engine reads from a response map. */
module Questions {

  datatype Option<+T> = None | Some(value: T) {
    /** The value, or `default` when absent (JavaScript's destructuring default). */
    function GetOr(default: T): T {
      match this
      case Some(v) => v
      case None => default
    }
  }

  /** A JavaScript number as the scoring engine can meet it: a finite value
      or NaN. */
  datatype Num = Finite(value: real) | NaN

  /** `100 - x` on JavaScript numbers: NaN stays NaN. */
  function Complement(x: Num): (r: Num)
    ensures r.NaN? <==> x.NaN?
    ensures r.Finite? ==> r.value + x.value == 100.0
  {
    match x
    case Finite(v) => Finite(100.0 - v)
    case NaN => NaN
  }

  /** One question of the bank. `dimension` and `direction` are free strings,
      exactly as the bank stores them; only the validator decides whether
      they name a known dimension and one of its letters. */
  datatype Question = Question(
    id: int,
    text: string,
    dimension: string,
    direction: string,
    isReverse: bool)

  /** The five known dimensions, in the order the engine visits them. */
  datatype Dim = EI | SN | TF | JP | AT

  const Dimensions: seq<Dim> := [EI, SN, TF, JP, AT]

  /** Position of a dimension in `Dimensions`. */
  function Index(d: Dim): (i: nat)
    ensures i < |Dimensions| && Dimensions[i] == d
  {
    match d
    case EI => 0
    case SN => 1
    case TF => 2
    case JP => 3
    case AT => 4
  }

  /** `Index` and `Dimensions` are inverse to each other. */
  lemma IndexOfPosition(k: nat)
    requires k < |Dimensions|
    ensures Index(Dimensions[k]) == k
  {
  }

  /** The key a question's `dimension` field uses for `d`. */
  function Name(d: Dim): string {
    match d
    case EI => "EI"
    case SN => "SN"
    case TF => "TF"
    case JP => "JP"
    case AT => "AT"
  }

  /** The first and second letter of the dimension's pair. */
  function First(d: Dim): string {
    match d
    case EI => "E"
    case SN => "S"
    case TF => "T"
    case JP => "J"
    case AT => "A"
  }

  function Second(d: Dim): string {
    match d
    case EI => "I"
    case SN => "N"
    case TF => "F"
    case JP => "P"
    case AT => "T"
  }

  /** The letter whose direction every percentage is reported for. */
  function Base(d: Dim): (b: string)
    ensures b == First(d) || b == Second(d)
    ensures |b| == 1
  {
    match d
    case EI => "E"
    case SN => "N"
    case TF => "T"
    case JP => "J"
    case AT => "A"
  }

  predicate InPair(d: Dim, letter: string) {
    letter == First(d) || letter == Second(d)
  }

  /** Recognises a dimension key; `None` for anything outside the five. */
  function ParseDim(s: string): (r: Option<Dim>)
    ensures r.Some? ==> Name(r.value) == s
    ensures r.None? ==> forall d: Dim :: Name(d) != s
  {
    if s == "EI" then Some(EI)
    else if s == "SN" then Some(SN)
    else if s == "TF" then Some(TF)
    else if s == "JP" then Some(JP)
    else if s == "AT" then Some(AT)
    else None
  }

  /** Each pair has two distinct one-letter members, and the dimension keys
      are distinct. */
  lemma PairsWellFormed(d: Dim, e: Dim)
    ensures First(d) != Second(d) && |First(d)| == 1 && |Second(d)| == 1
    ensures Name(d) == Name(e) ==> d == e
  {
  }
}

=== FILE: runs.dfy ===
/** Runs of consecutive questions that share a dimension: the vocabulary in
    which the sequencer's ordering constraint is stated. */
module Runs {
  import opened Questions

  /** A reported run: where it starts, its dimension, and how many questions
      of that dimension were counted from there. */
  datatype Violation = Violation(position: nat, dimension: string, consecutiveCount: nat)

  /** The `len` questions starting at `i` all share the dimension of `qs[i]`. */
  predicate Run(qs: seq<Question>, i: int, len: nat) {
    && 0 <= i
    && i + len <= |qs|
    && forall t :: i <= t < i + len ==> qs[t].dimension == qs[i].dimension
  }

  /** A run longer than `k` starts at `i`: `k + 1` consecutive questions of
      one dimension. */
  predicate LongRunAt(qs: seq<Question>, i: int, k: nat) {
    Run(qs, i, k + 1)
  }

  /** No dimension occurs more than `k` times in a row. */
  predicate NoLongRun(qs: seq<Question>, k: nat) {
    forall i :: 0 <= i < |qs| ==> !LongRunAt(qs, i, k)
  }

  /** A run that cannot be extended on either side. */
  predicate MaximalRunAt(qs: seq<Question>, i: int, len: nat) {
    && len >= 1
    && Run(qs, i, len)
    && (i == 0 || qs[i - 1].dimension != qs[i].dimension)
    && (i + len == |qs| || qs[i + len].dimension != qs[i].dimension)
  }

  /** The first index at or after `p` whose dimension is not `dim`. */
  function RunEnd(qs: seq<Question>, p: nat, dim: string): (e: nat)
    requires p <= |qs|
    ensures p <= e <= |qs|
    ensures forall t :: p <= t < e ==> qs[t].dimension == dim
    ensures e == |qs| || qs[e].dimension != dim
    decreases |qs| - p
  {
    if p < |qs| && qs[p].dimension == dim then RunEnd(qs, p + 1, dim) else p
  }

  /** `RunEnd` is the only index with its defining properties. */
  lemma RunEndUnique(qs: seq<Question>, p: nat, dim: string, e: nat)
    requires p <= e <= |qs|
    requires forall t :: p <= t < e ==> qs[t].dimension == dim
    requires e == |qs| || qs[e].dimension != dim
    ensures RunEnd(qs, p, dim) == e
  {
  }

  /** The first index of the run of `qs[i]`'s dimension that contains `i`. */
  function RunStart(qs: seq<Question>, i: nat): (s: nat)
    requires i < |qs|
    ensures s <= i
    ensures forall t :: s <= t <= i ==> qs[t].dimension == qs[i].dimension
    ensures s == 0 || qs[s - 1].dimension != qs[i].dimension
    decreases i
  {
    if i > 0 && qs[i - 1].dimension == qs[i].dimension then RunStart(qs, i - 1) else i
  }

  /** Two maximal runs that start at the same index are the same run. */
  lemma MaximalRunUnique(qs: seq<Question>, i: int, a: nat, b: nat)
    requires MaximalRunAt(qs, i, a) && MaximalRunAt(qs, i, b)
    ensures a == b
  {
  }

  /** Maximal runs do not overlap: two that share an index are the same run.
      Together with `MaximalRunThrough` this says they partition the
      sequence. */
  lemma MaximalRunsDisjoint(qs: seq<Question>, s1: int, l1: nat, s2: int, l2: nat, t: int)
    requires MaximalRunAt(qs, s1, l1) && MaximalRunAt(qs, s2, l2)
    requires s1 <= t < s1 + l1 && s2 <= t < s2 + l2
    ensures s1 == s2 && l1 == l2
  {
    MaximalRunUnique(qs, s1, l1, l2);
  }

  /** A run is as long as it reaches: `RunEnd` lies at or past its end. */
  lemma RunEndCovers(qs: seq<Question>, i: nat, len: nat)
    requires len >= 1 && Run(qs, i, len)
    ensures RunEnd(qs, i, qs[i].dimension) >= i + len
  {
  }

  /** The maximal run through `i`. */
  lemma MaximalRunThrough(qs: seq<Question>, i: nat)
    requires i < |qs|
    ensures var s := RunStart(qs, i);
            MaximalRunAt(qs, s, RunEnd(qs, i, qs[i].dimension) - s)
  {
    var s := RunStart(qs, i);
    var e := RunEnd(qs, i, qs[i].dimension);
    assert qs[s].dimension == qs[i].dimension;
    assert Run(qs, s, e - s) by {
      forall t | s <= t < e ensures qs[t].dimension == qs[s].dimension {
        if t > i {
          assert qs[t].dimension == qs[i].dimension;
        }
      }
    }
  }

  /** A long run lies inside a maximal run that is just as long or longer,
      so "some window of k + 1" and "some maximal run over k" agree. */
  lemma NoLongRunIffMaximalRunsShort(qs: seq<Question>, k: nat)
    ensures NoLongRun(qs, k) <==> forall s: int, len: nat :: MaximalRunAt(qs, s, len) ==> len <= k
  {
    if !NoLongRun(qs, k) {
      var i :| 0 <= i < |qs| && LongRunAt(qs, i, k);
      var s := RunStart(qs, i);
      var e := RunEnd(qs, i, qs[i].dimension);
      MaximalRunThrough(qs, i);
      RunEndCovers(qs, i, k + 1);
      assert MaximalRunAt(qs, s, e - s) && e - s > k;
    }
    if exists s: int, len: nat :: MaximalRunAt(qs, s, len) && len > k {
      var s: int, len: nat :| MaximalRunAt(qs, s, len) && len > k;
      assert LongRunAt(qs, s, k);
    }
  }
}

=== FILE: scores.dfy ===
/** The score aggregator: per-dimension scoring of a response map against the
    question bank, and the composite result (type code, detail entries, chart
    data and the ordered error list). */
module Scores {
  import opened Questions

  /** Scoring options; an absent field takes the source's default. */
  datatype Options = Options(requireAllAnswers: Option<bool>, minAnswered: Option<int>)

  const DefaultMinAnswered: int := 13

  function RequireAll(opts: Options): bool {
    opts.requireAllAnswers.GetOr(true)
  }

  function MinAnswered(opts: Options): int {
    opts.minAnswered.GetOr(DefaultMinAnswered)
  }

  /** The per-dimension error messages, without their wording. */
  datatype ScoreError =
    | MissingAnswers(dimension: Dim)
    | InsufficientAnswers(dimension: Dim, answered: nat, available: nat, required: int)

  /** What the engine reports for one dimension; `letter` is the source's
      `type` field. */
  datatype DimensionScore = DimensionScore(
    base: string,
    totalScore: Option<real>,
    percentage: Option<Num>,
    letter: Option<string>,
    answeredCount: nat,
    minScore: Option<nat>,
    maxScore: Option<nat>,
    missingIds: Option<seq<int>>,
    error: Option<ScoreError>)

  /** The other letter of the pair; a letter outside the pair maps to the
      pair's first letter. */
  function Opposite(d: Dim, letter: string): (r: string)
    ensures InPair(d, r)
    ensures InPair(d, letter) ==> r != letter
    ensures !InPair(d, letter) ==> r == First(d)
  {
    if letter == First(d) then Second(d) else First(d)
  }

  /** On the pair's letters `Opposite` is an involution. */
  lemma OppositeInvolution(d: Dim, letter: string)
    requires InPair(d, letter)
    ensures Opposite(d, Opposite(d, letter)) == letter
  {
  }

  /** A usable rating: a finite number within [1,6]. Fractions pass. */
  predicate IsRating(score: Option<Num>) {
    score.Some? && score.value.Finite? && 1.0 <= score.value.value <= 6.0
  }

  /** Accepts a response only when it is a rating, and then unchanged. */
  function ClampScore(score: Option<Num>): (r: Option<real>)
    ensures r.Some? <==> IsRating(score)
    ensures r.Some? ==> score == Some(Finite(r.value))
  {
    match score
    case None => None
    case Some(NaN) => None
    case Some(Finite(v)) => if v < 1.0 || v > 6.0 then None else Some(v)
  }

  /** `responses[id]`; `None` stands for JavaScript's `undefined`. */
  function Response(responses: map<int, Num>, id: int): Option<Num> {
    if id in responses then Some(responses[id]) else None
  }

  predicate Answered(q: Question, responses: map<int, Num>) {
    IsRating(Response(responses, q.id))
  }

  /** A rating's contribution towards the base letter: the rating itself when
      the question points at the base letter, its 6-point reversal otherwise. */
  function Contribution(q: Question, base: string, rating: real): (c: real)
    ensures q.direction == base ==> c == rating
    ensures q.direction != base ==> c + rating == 7.0
    ensures 1.0 <= rating <= 6.0 ==> 1.0 <= c <= 6.0
  {
    if q.direction == base then rating else 7.0 - rating
  }

  /** The bank's questions for dimension `d`, in bank order. */
  function DimQuestions(qs: seq<Question>, d: Dim): (dq: seq<Question>)
    ensures |dq| <= |qs|
    ensures forall t :: 0 <= t < |dq| ==> dq[t].dimension == Name(d)
    ensures forall t :: 0 <= t < |qs| && qs[t].dimension == Name(d) ==> qs[t] in dq
  {
    if |qs| == 0 then []
    else (if qs[0].dimension == Name(d) then [qs[0]] else []) + DimQuestions(qs[1..], d)
  }

  /** A one-question bank selects its question exactly when it has the
      dimension. */
  lemma DimQuestionsSingle(q: Question, d: Dim)
    ensures DimQuestions([q], d) == if q.dimension == Name(d) then [q] else []
  {
    assert [q][1..] == [];
  }

  /** Selection distributes over concatenation of banks, so it keeps bank
      order and every occurrence. */
  lemma {:induction false} DimQuestionsAppend(a: seq<Question>, b: seq<Question>, d: Dim)
    ensures DimQuestions(a + b, d) == DimQuestions(a, d) + DimQuestions(b, d)
  {
    if |a| == 0 {
      assert a + b == b;
    } else {
      assert (a + b)[0] == a[0];
      assert (a + b)[1..] == a[1..] + b;
      DimQuestionsAppend(a[1..], b, d);
    }
  }

  // Reference definitions over a dimension's questions, independent of the
  // scoring loop.

  predicate AllAnswered(dq: seq<Question>, responses: map<int, Num>) {
    forall t :: 0 <= t < |dq| ==> Answered(dq[t], responses)
  }

  /** Number of questions with a usable rating. */
  function ValidCount(dq: seq<Question>, responses: map<int, Num>): (n: nat)
    ensures n <= |dq|

  {
    if |dq| == 0 then 0
    else ValidCount(dq[..|dq| - 1], responses) + (if Answered(dq[|dq| - 1], responses) then 1 else 0)
  }

  /** Sum of the contributions of the questions with a usable rating. */
  function ValidTotal(dq: seq<Question>, base: string, responses: map<int, Num>): real
  {
    if |dq| == 0 then 0.0
    else
      var q := dq[|dq| - 1];
      ValidTotal(dq[..|dq| - 1], base, responses)
      + (if Answered(q, responses) then Contribution(q, base, responses[q.id].value) else 0.0)
  }

  /** Every usable rating contributes between 1 and 6, so the total of n
      usable ratings lies in [n, 6n]. */
  lemma {:induction false} ValidTotalBounds(dq: seq<Question>, base: string, responses: map<int, Num>)
    ensures ValidCount(dq, responses) as real <= ValidTotal(dq, base, responses)
            <= 6.0 * ValidCount(dq, responses) as real
  {
    if |dq| > 0 {
      ValidTotalBounds(dq[..|dq| - 1], base, responses);
    }
  }

  /** Index of the first question without a usable rating, or `|dq|`. */
  function FirstUnanswered(dq: seq<Question>, responses: map<int, Num>): (f: nat)
    ensures f <= |dq|
    ensures forall t :: 0 <= t < f ==> Answered(dq[t], responses)
    ensures f < |dq| ==> !Answered(dq[f], responses)
  {
    if |dq| == 0 then 0
    else if !Answered(dq[0], responses) then 0
    else 1 + FirstUnanswered(dq[1..], responses)
  }

  /** Ids of the questions without a usable rating, in bank order. */
  function MissingIds(dq: seq<Question>, responses: map<int, Num>): (ids: seq<int>)
    ensures |ids| + ValidCount(dq, responses) == |dq|
    ensures forall id :: id in ids <==>
      exists t :: 0 <= t < |dq| && dq[t].id == id && !Answered(dq[t], responses)
  {
    if |dq| == 0 then []
    else
      var q := dq[|dq| - 1];
      MissingIds(dq[..|dq| - 1], responses) + (if Answered(q, responses) then [] else [q.id])
  }

  /** A single question is missing exactly when it has no usable rating. */
  lemma MissingIdsSingle(q: Question, responses: map<int, Num>)
    ensures MissingIds([q], responses) == if Answered(q, responses) then [] else [q.id]
  {
    assert [q][..0] == [];
  }

  /** The missing ids of two lists of questions joined are those of each, in
      order: bank order, every unanswered question once per occurrence. */
  lemma {:induction false} MissingIdsAppend(a: seq<Question>, b: seq<Question>, responses: map<int, Num>)
    ensures MissingIds(a + b, responses) == MissingIds(a, responses) + MissingIds(b, responses)
  {
    if |b| == 0 {
      assert a + b == a;
    } else {
      var init := b[..|b| - 1];
      var q := b[|b| - 1];
      var tail := if Answered(q, responses) then [] else [q.id];
      assert MissingIds(a + b, responses) == MissingIds(a + init, responses) + tail by {
        assert a + b == (a + init) + [q];
        MissingIdsSnoc(a + init, q, responses);
      }
      assert MissingIds(b, responses) == MissingIds(init, responses) + tail by {
        assert b == init + [q];
        MissingIdsSnoc(init, q, responses);
      }
      MissingIdsAppend(a, init, responses);
      AppendAssoc(MissingIds(a, responses), MissingIds(init, responses), tail);
    }
  }

  /** Concatenation regroups. Stated apart so that its proof does not run in
      the presence of the caller's quantified contracts. */
  lemma AppendAssoc<T>(x: seq<T>, y: seq<T>, z: seq<T>)
    ensures (x + y) + z == x + (y + z)
  {
  }

  /** One more question at the end adds its id exactly when it is missing. */
  lemma MissingIdsSnoc(dq: seq<Question>, q: Question, responses: map<int, Num>)
    ensures MissingIds(dq + [q], responses)
            == MissingIds(dq, responses) + (if Answered(q, responses) then [] else [q.id])
  {
    assert (dq + [q])[..|dq|] == dq;
  }

  /** The scoring loop over a dimension's questions, from index `i` on, with
      the running total and count. `Stopped` is the early return of
      require-all mode. */
  datatype Tally = Stopped(answered: nat) | Finished(total: real, answered: nat)

  function Walk(dq: seq<Question>, base: string, responses: map<int, Num>, requireAll: bool,
                i: nat, total: real, answered: nat): Tally
    requires i <= |dq|
    decreases |dq| - i
  {
    if i == |dq| then Finished(total, answered)
    else
      match ClampScore(Response(responses, dq[i].id))
      case None =>
        if requireAll then Stopped(answered)
        else Walk(dq, base, responses, requireAll, i + 1, total, answered)
      case Some(s) =>
        Walk(dq, base, responses, requireAll, i + 1, total + Contribution(dq[i], base, s), answered + 1)
  }

  /** All questions count exactly when all are answered. */
  lemma {:induction false} ValidCountFull(dq: seq<Question>, responses: map<int, Num>)
    ensures ValidCount(dq, responses) == |dq| <==> AllAnswered(dq, responses)
  {
    if |dq| > 0 {
      var pre := dq[..|dq| - 1];
      ValidCountFull(pre, responses);
      assert AllAnswered(dq, responses) <==> AllAnswered(pre, responses) && Answered(dq[|dq| - 1], responses) by {
        if AllAnswered(pre, responses) && Answered(dq[|dq| - 1], responses) {
          forall t | 0 <= t < |dq| ensures Answered(dq[t], responses) {
            if t < |dq| - 1 {
              assert dq[t] == pre[t];
            }
          }
        }
        if AllAnswered(dq, responses) {
          forall t | 0 <= t < |pre| ensures Answered(pre[t], responses) {
            assert pre[t] == dq[t];
          }
        }
      }
    }
  }

  lemma ValidCountAllAnswered(dq: seq<Question>, responses: map<int, Num>, i: nat)
    requires i <= |dq|
    requires forall t :: 0 <= t < i ==> Answered(dq[t], responses)
    ensures ValidCount(dq[..i], responses) == i
  {
    assert AllAnswered(dq[..i], responses);
    ValidCountFull(dq[..i], responses);
  }

  /** How the reference definitions grow by one question. */
  lemma PrefixStep(dq: seq<Question>, base: string, responses: map<int, Num>, i: nat)
    requires i < |dq|
    ensures !Answered(dq[i], responses) ==>
      && ValidCount(dq[..i + 1], responses) == ValidCount(dq[..i], responses)
      && ValidTotal(dq[..i + 1], base, responses) == ValidTotal(dq[..i], base, responses)
    ensures Answered(dq[i], responses) ==>
      && ClampScore(Response(responses, dq[i].id)) == Some(responses[dq[i].id].value)
      && ValidCount(dq[..i + 1], responses) == ValidCount(dq[..i], responses) + 1
      && ValidTotal(dq[..i + 1], base, responses)
         == ValidTotal(dq[..i], base, responses) + Contribution(dq[i], base, responses[dq[i].id].value)
  {
    var pre := dq[..i + 1];
    assert pre[..i] == dq[..i];
    assert pre[i] == dq[i];
  }

  /** The loop computes the reference definitions: in require-all mode with a
      missing answer it stops at the first one, otherwise it sums over
      exactly the answered questions. */
  lemma {:induction false} WalkMeaning(dq: seq<Question>, base: string, responses: map<int, Num>,
                                       requireAll: bool, i: nat)
    requires i <= |dq|
    requires requireAll ==> forall t :: 0 <= t < i ==> Answered(dq[t], responses)
    ensures var w := Walk(dq, base, responses, requireAll, i,
                          ValidTotal(dq[..i], base, responses), ValidCount(dq[..i], responses));
            if requireAll && !AllAnswered(dq, responses)
            then w == Stopped(FirstUnanswered(dq, responses))
            else w == Finished(ValidTotal(dq, base, responses), ValidCount(dq, responses))
    decreases |dq| - i
  {
    if i == |dq| {
      assert dq[..i] == dq;
    } else if requireAll && !Answered(dq[i], responses) {
      PrefixStep(dq, base, responses, i);
      assert ClampScore(Response(responses, dq[i].id)).None?;
      ValidCountAllAnswered(dq, responses, i);
      assert !AllAnswered(dq, responses);
      assert FirstUnanswered(dq, responses) == i;
    } else {
      WalkAdvance(dq, base, responses, requireAll, i);
      assert requireAll ==> forall t :: 0 <= t < i + 1 ==> Answered(dq[t], responses);
      WalkMeaning(dq, base, responses, requireAll, i + 1);
    }
  }

  /** One step of the loop that does not stop keeps the running total and
      count equal to the reference definitions on the prefix read so far. */
  lemma WalkAdvance(dq: seq<Question>, base: string, responses: map<int, Num>,
                    requireAll: bool, i: nat)
    requires i < |dq|
    requires requireAll ==> Answered(dq[i], responses)
    ensures Walk(dq, base, responses, requireAll, i,
                 ValidTotal(dq[..i], base, responses), ValidCount(dq[..i], responses))
         == Walk(dq, base, responses, requireAll, i + 1,
                 ValidTotal(dq[..i + 1], base, responses), ValidCount(dq[..i + 1], responses))
  {
    PrefixStep(dq, base, responses, i);
    if Answered(dq[i], responses) {
      assert ClampScore(Response(responses, dq[i].id)) == Some(responses[dq[i].id].value);
    } else {
      assert ClampScore(Response(responses, dq[i].id)).None?;
    }
  }

  /** The percentage for the base letter: the summed score rescaled linearly
      from [n, 6n] to [0, 100]. `0/0` for an empty sum is NaN, as in
      JavaScript. */
  function Percentage(total: real, answered: nat): (p: Num)
    requires answered == 0 ==> total == 0.0
    ensures p.NaN? <==> answered == 0
    ensures p.Finite? ==> p.value * 5.0 * answered as real == (total - answered as real) * 100.0
    ensures p.Finite? && answered as real <= total <= 6.0 * answered as real ==> 0.0 <= p.value <= 100.0
    ensures p.Finite? ==> (p.value >= 50.0 <==> 2.0 * total >= 7.0 * answered as real)
  {
    var minScore := answered * 1;
    var maxScore := answered * 6;
    if maxScore - minScore == 0 then NaN
    else
      var p := (total - minScore as real) / (maxScore - minScore) as real * 100.0;
      PercentageFacts(total, answered as real, p);
      Finite(p)
  }

  lemma PercentageFacts(total: real, n: real, p: real)
    requires n > 0.0
    requires p == (total - n) / (6.0 * n - n) * 100.0
    ensures p * 5.0 * n == (total - n) * 100.0
    ensures n <= total <= 6.0 * n ==> 0.0 <= p <= 100.0
    ensures p >= 50.0 <==> 2.0 * total >= 7.0 * n
  {
    var m := 5.0 * n;
    var q := (total - n) / m;
    assert 6.0 * n - n == m;
    assert q * m == total - n;
    assert p == q * 100.0;
    if n <= total <= 6.0 * n {
      assert 0.0 <= q <= 1.0 by {
        if q < 0.0 {
          MulStrict(q, 0.0, m);
        }
        if q > 1.0 {
          MulStrict(1.0, q, m);
        }
      }
    }
    if q >= 0.5 {
      if q > 0.5 {
        MulStrict(0.5, q, m);
      }
    } else {
      MulStrict(q, 0.5, m);
      assert q * m < 0.5 * m;
      assert q * m == total - n;
      assert total - n < 0.5 * m;
      assert 2.0 * total < 7.0 * n;
      assert p < 50.0;
    }
  }

  lemma MulStrict(a: real, b: real, c: real)
    requires a < b && c > 0.0
    ensures a * c < b * c
  {
  }

  /** The resolved letter: the base letter from 50 up, the other letter
      below 50 and for NaN. */
  function Resolve(d: Dim, p: Num): (letter: string)
    ensures InPair(d, letter)
    ensures letter == Base(d) <==> p.Finite? && p.value >= 50.0
  {
    if p.Finite? && p.value >= 50.0 then Base(d) else Opposite(d, Base(d))
  }

  /** Whether the completeness policy lets a dimension resolve. */
  predicate Resolves(d: Dim, responses: map<int, Num>, questions: seq<Question>, opts: Options) {
    var dq := DimQuestions(questions, d);
    if RequireAll(opts) then AllAnswered(dq, responses)
    else ValidCount(dq, responses) >= MinAnswered(opts)
  }

  function CalculateDimensionScore(d: Dim, responses: map<int, Num>, questions: seq<Question>,
                                   opts: Options): (r: DimensionScore)
    ensures r.base == Base(d)
    // gating: every resolved field is present exactly when the policy allows
    ensures r.percentage.Some? <==> Resolves(d, responses, questions, opts)
    ensures r.totalScore.Some? <==> r.percentage.Some?
    ensures r.letter.Some? <==> r.percentage.Some?
    ensures r.error.Some? <==> r.percentage.None?
    ensures r.error.Some? ==> r.error.value.dimension == d
    // require-all mode with a gap
    ensures r.missingIds.Some? <==> RequireAll(opts) && !AllAnswered(DimQuestions(questions, d), responses)
    ensures r.missingIds.Some? ==>
      && r.missingIds.value == MissingIds(DimQuestions(questions, d), responses)
      && r.answeredCount == FirstUnanswered(DimQuestions(questions, d), responses)
      && r.error == Some(MissingAnswers(d))
    // every other path counts exactly the usable answers
    ensures r.missingIds.None? ==> r.answeredCount == ValidCount(DimQuestions(questions, d), responses)
    ensures !RequireAll(opts) && r.percentage.None? ==>
      r.error == Some(InsufficientAnswers(d, r.answeredCount, |DimQuestions(questions, d)|, MinAnswered(opts)))
    // resolved: the total, its bounds, the percentage and the letter
    ensures r.totalScore.Some? ==>
      && r.totalScore.value == ValidTotal(DimQuestions(questions, d), Base(d), responses)
      && r.answeredCount as real <= r.totalScore.value <= 6.0 * r.answeredCount as real
      && r.minScore == Some(r.answeredCount)
      && r.maxScore == Some(r.answeredCount * 6)
    ensures r.percentage.None? ==> r.minScore.None? && r.maxScore.None?
    ensures r.percentage.Some? ==> r.percentage.value == Percentage(r.totalScore.value, r.answeredCount)
    ensures r.percentage.Some? && r.answeredCount > 0 ==>
      r.percentage.value.Finite? && 0.0 <= r.percentage.value.value <= 100.0
    ensures r.percentage.Some? && r.answeredCount == 0 ==> r.percentage.value.NaN?
    ensures r.letter.Some? ==>
      && InPair(d, r.letter.value)
      && (r.letter.value == Base(d) <==> r.percentage.value.Finite? && r.percentage.value.value >= 50.0)
  {
    var requireAll := RequireAll(opts);
    var minAnswered := MinAnswered(opts);
    var dq := DimQuestions(questions, d);
    var base := Base(d);
    WalkMeaning(dq, base, responses, requireAll, 0);
    ValidTotalBounds(dq, base, responses);
    assert dq[..0] == [];
    match Walk(dq, base, responses, requireAll, 0, 0.0, 0)
    case Stopped(answered) =>
      DimensionScore(base, None, None, None, answered, None, None,
                     Some(MissingIds(dq, responses)), Some(MissingAnswers(d)))
    case Finished(totalScore, answeredCount) =>
      if !requireAll && answeredCount < minAnswered then
        DimensionScore(base, None, None, None, answeredCount, None, None, None,
                       Some(InsufficientAnswers(d, answeredCount, |dq|, minAnswered)))
      else
        ResolvedScore(d, totalScore, answeredCount)
  }

  /** The result for a dimension that resolved with `answeredCount` usable
      ratings summing to `totalScore`. */
  function ResolvedScore(d: Dim, totalScore: real, answeredCount: nat): (r: DimensionScore)
    requires answeredCount as real <= totalScore <= 6.0 * answeredCount as real
    ensures r.base == Base(d) && r.totalScore == Some(totalScore) && r.answeredCount == answeredCount
    ensures r.minScore == Some(answeredCount) && r.maxScore == Some(answeredCount * 6)
    ensures r.missingIds.None? && r.error.None? && r.percentage.Some? && r.letter.Some?
    ensures r.percentage.value == Percentage(totalScore, answeredCount)
    ensures answeredCount > 0 ==> r.percentage.value.Finite? && 0.0 <= r.percentage.value.value <= 100.0
    ensures answeredCount == 0 ==> r.percentage.value.NaN?
    ensures InPair(d, r.letter.value)
    ensures r.letter.value == Base(d) <==> r.percentage.value.Finite? && r.percentage.value.value >= 50.0
  {
    var percentage := Percentage(totalScore, answeredCount);
    DimensionScore(Base(d), Some(totalScore), Some(percentage), Some(Resolve(d, percentage)),
                   answeredCount, Some(answeredCount * 1), Some(answeredCount * 6), None, None)
  }

  /** With the default threshold of 13 in partial mode, a dimension resolves
      exactly when at least 13 answers are usable: 12 leave it unresolved
      with an error, 13 resolve it. */
  lemma PartialThreshold(d: Dim, responses: map<int, Num>, questions: seq<Question>)
    ensures var r := CalculateDimensionScore(d, responses, questions, Options(Some(false), None));
            var n := ValidCount(DimQuestions(questions, d), responses);
            && (n < 13 ==> r.percentage.None? && r.error.Some?)
            && (n >= 13 ==> r.percentage.Some? && r.letter.Some?)
  {
  }

  // ---- composite result ----

  /** The per-dimension display entry, without its wording and rounding. */
  datatype Detail = Unavailable | Split(first: Num, second: Num)

  datatype AllScores = AllScores(
    mbtiType: Option<string>,
    dimensions: map<Dim, DimensionScore>,
    details: map<Dim, Detail>,
    chartData: map<Dim, map<string, Option<Num>>>,
    errors: seq<ScoreError>)

  predicate Complete(results: map<Dim, DimensionScore>) {
    forall d: Dim :: d in results
  }

  /** The error messages of the dimensions from position `k` of
      `Dimensions` on, in that order. */
  function ErrorsFrom(results: map<Dim, DimensionScore>, k: nat): seq<ScoreError>
    requires k <= |Dimensions|
    requires Complete(results)
    decreases |Dimensions| - k
  {
    if k == |Dimensions| then []
    else
      var r := results[Dimensions[k]];
      (if r.error.Some? then [r.error.value] else []) + ErrorsFrom(results, k + 1)
  }

  /** Every collected error is the error of a dimension from position `k` on. */
  lemma {:induction false} ErrorsFromSound(results: map<Dim, DimensionScore>, k: nat)
    requires k <= |Dimensions|
    requires Complete(results)
    requires forall d: Dim :: results[d].error.Some? ==> results[d].error.value.dimension == d
    ensures forall e :: e in ErrorsFrom(results, k) ==> k <= Index(e.dimension) && results[e.dimension].error == Some(e)
    decreases |Dimensions| - k
  {
    if k < |Dimensions| {
      ErrorsFromSound(results, k + 1);
      IndexOfPosition(k);
    }
  }

  /** The error of every dimension from position `k` on is collected. */
  lemma {:induction false} ErrorsFromComplete(results: map<Dim, DimensionScore>, k: nat)
    requires k <= |Dimensions|
    requires Complete(results)
    ensures forall d: Dim :: k <= Index(d) && results[d].error.Some? ==> results[d].error.value in ErrorsFrom(results, k)
    decreases |Dimensions| - k
  {
    if k < |Dimensions| {
      ErrorsFromComplete(results, k + 1);
      forall d: Dim | k <= Index(d) && results[d].error.Some?
        ensures results[d].error.value in ErrorsFrom(results, k)
      {
        if Index(d) == k {
          IndexOfPosition(k);
        }
      }
    }
  }

  /** Errors listed by strictly increasing dimension position. */
  predicate Ordered(errs: seq<ScoreError>) {
    forall i, j :: 0 <= i < j < |errs| ==> Index(errs[i].dimension) < Index(errs[j].dimension)
  }

  /** An error placed before an ordered list of later dimensions' errors
      keeps it ordered. */
  lemma ConsOrdered(x: ScoreError, rest: seq<ScoreError>)
    requires Ordered(rest)
    requires forall e :: e in rest ==> Index(x.dimension) < Index(e.dimension)
    ensures Ordered([x] + rest)
  {
    var errs := [x] + rest;
    forall i, j | 0 <= i < j < |errs|
      ensures Index(errs[i].dimension) < Index(errs[j].dimension)
    {
      assert errs[j] == rest[j - 1];
      if i > 0 {
        assert errs[i] == rest[i - 1];
      } else {
        assert rest[j - 1] in rest;
      }
    }
  }

  /** The collected errors follow the dimension order. */
  lemma {:induction false} ErrorsFromOrdered(results: map<Dim, DimensionScore>, k: nat)
    requires k <= |Dimensions|
    requires Complete(results)
    requires forall d: Dim :: results[d].error.Some? ==> results[d].error.value.dimension == d
    ensures Ordered(ErrorsFrom(results, k))
    decreases |Dimensions| - k
  {
    if k < |Dimensions| {
      ErrorsFromOrdered(results, k + 1);
      ErrorsFromSound(results, k + 1);
      var r := results[Dimensions[k]];
      if r.error.Some? {
        IndexOfPosition(k);
        ConsOrdered(r.error.value, ErrorsFrom(results, k + 1));
      }
    }
  }

  /** The composite code `{EI}{SN}{TF}{JP}-{AT}`, present only when all five
      letters are. */
  function Compose(results: map<Dim, DimensionScore>): (code: Option<string>)
    requires Complete(results)
    requires forall d: Dim :: results[d].letter.Some? ==> InPair(d, results[d].letter.value)
    ensures code.Some? <==> forall d: Dim :: results[d].letter.Some?
    ensures code.Some? ==> |code.value| == 6 && code.value[4] == '-'
    ensures code.Some? ==> forall d: Dim :: [code.value[CodePosition(d)]] == results[d].letter.value
  {
    if forall d: Dim :: results[d].letter.Some? then
      var e := results[EI].letter.value;
      var s := results[SN].letter.value;
      var t := results[TF].letter.value;
      var j := results[JP].letter.value;
      var a := results[AT].letter.value;
      assert InPair(EI, e) && InPair(SN, s) && InPair(TF, t) && InPair(JP, j) && InPair(AT, a);
      assert |e| == 1 && |s| == 1 && |t| == 1 && |j| == 1 && |a| == 1;
      var code := e + s + t + j + "-" + a;
      assert code == [e[0], s[0], t[0], j[0], '-', a[0]];
      Some(code)
    else None
  }

  /** Where a dimension's letter sits in the composite code. */
  function CodePosition(d: Dim): (i: nat)
    ensures i < 6 && i != 4
  {
    if Index(d) < 4 then Index(d) else 5
  }

  /** The pair percentages of a resolved dimension, first letter then second. */
  function PairPercentages(d: Dim, r: DimensionScore): (Num, Num)
    requires r.percentage.Some?
  {
    var aPct := if r.base == First(d) then r.percentage.value else Complement(r.percentage.value);
    (aPct, Complement(aPct))
  }

  /** The display entry of one dimension: the first letter's share and the
      second's, which add up to 100. */
  function DetailOf(d: Dim, r: DimensionScore): (e: Detail)
    ensures e.Unavailable? <==> r.percentage.None?
    ensures e.Split? ==> e.second == Complement(e.first)
    ensures e.Split? && r.base == First(d) ==> e.first == r.percentage.value
    ensures e.Split? && r.base != First(d) ==> e.first == Complement(r.percentage.value)
  {
    if r.percentage.None? then Unavailable
    else
      var (aPct, bPct) := PairPercentages(d, r);
      Split(aPct, bPct)
  }

  function ChartOf(d: Dim, r: DimensionScore): (c: map<string, Option<Num>>)
    requires r.base == Base(d)
    ensures c.Keys == {First(d), Second(d)}
    ensures r.percentage.None? ==> c[First(d)].None? && c[Second(d)].None?
    ensures r.percentage.Some? ==>
      && c[Base(d)] == r.percentage
      && c[Opposite(d, Base(d))] == Some(Complement(r.percentage.value))
  {
    PairsWellFormed(d, d);
    if r.percentage.None? then map[First(d) := None, Second(d) := None]
    else
      var (aPct, bPct) := PairPercentages(d, r);
      map[First(d) := Some(aPct), Second(d) := Some(bPct)]
  }

  /** Every dimension's score, keyed by dimension. */
  function ScoreAll(responses: map<int, Num>, questions: seq<Question>, opts: Options)
    : (results: map<Dim, DimensionScore>)
    ensures Coherent(results)
  {
    var results := map d: Dim | d in Dimensions :: CalculateDimensionScore(d, responses, questions, opts);
    assert Complete(results) by {
      forall d: Dim ensures d in results {
        assert Dimensions[Index(d)] == d;
      }
    }
    forall d: Dim
      ensures results[d].base == Base(d)
      ensures results[d].error.Some? ==> results[d].error.value.dimension == d
      ensures results[d].letter.Some? ==> InPair(d, results[d].letter.value)
    {
      var r := CalculateDimensionScore(d, responses, questions, opts);
      assert results[d] == r;
    }
    results
  }

  lemma ScoreAllIsPerDimension(responses: map<int, Num>, questions: seq<Question>, opts: Options, d: Dim)
    ensures ScoreAll(responses, questions, opts)[d] == CalculateDimensionScore(d, responses, questions, opts)
  {
  }

  /** The error list: exactly the dimensions' errors, in dimension order. */
  function ErrorList(results: map<Dim, DimensionScore>): (errors: seq<ScoreError>)
    requires Coherent(results)
    ensures forall e :: e in errors <==> exists d: Dim :: results[d].error == Some(e)
    ensures forall i, j :: 0 <= i < j < |errors| ==> Index(errors[i].dimension) < Index(errors[j].dimension)
  {
    var errors := ErrorsFrom(results, 0);
    ErrorsFromOrdered(results, 0);
    forall e
      ensures e in errors <==> exists d: Dim :: results[d].error == Some(e)
    {
      if e in errors {
        ErrorsFromSound(results, 0);
        assert results[e.dimension].error == Some(e);
      }
      if d: Dim :| results[d].error == Some(e) {
        ErrorsFromComplete(results, 0);
        assert results[d].error.value in errors;
      }
    }
    errors
  }

  /** Scores as `CalculateDimensionScore` leaves them: reported for the base
      letter, errors tagged with their own dimension, letters from the pair. */
  predicate Coherent(results: map<Dim, DimensionScore>) {
    && Complete(results)
    && (forall d: Dim :: results[d].base == Base(d))
    && (forall d: Dim :: results[d].error.Some? ==> results[d].error.value.dimension == d)
    && (forall d: Dim :: results[d].letter.Some? ==> InPair(d, results[d].letter.value))
  }

  function Details(results: map<Dim, DimensionScore>): (details: map<Dim, Detail>)
    requires Complete(results)
    ensures forall d: Dim :: d in details
    ensures forall d: Dim :: details[d].Unavailable? <==> results[d].percentage.None?
    ensures forall d: Dim :: details[d].Split? ==> details[d].second == Complement(details[d].first)
    ensures forall d: Dim :: details[d].Split? && results[d].base == First(d) ==>
      details[d].first == results[d].percentage.value
    ensures forall d: Dim :: details[d].Split? && results[d].base != First(d) ==>
      details[d].first == Complement(results[d].percentage.value)
  {
    var details := map d: Dim | d in Dimensions :: DetailOf(d, results[d]);
    forall d: Dim
      ensures d in details
      ensures details[d] == DetailOf(d, results[d])
    {
      assert Dimensions[Index(d)] == d;
    }
    details
  }

  /** A resolved dimension's chart gives its percentage to the base letter
      and the complement to the other letter. */
  predicate ChartReportsBase(chart: map<Dim, map<string, Option<Num>>>, results: map<Dim, DimensionScore>) {
    forall d: Dim :: d in chart && d in results && results[d].percentage.Some? ==>
      && Base(d) in chart[d] && Opposite(d, Base(d)) in chart[d]
      && chart[d][Base(d)] == results[d].percentage
      && chart[d][Opposite(d, Base(d))] == Some(Complement(results[d].percentage.value))
  }

  function ChartData(results: map<Dim, DimensionScore>): (chart: map<Dim, map<string, Option<Num>>>)
    requires Coherent(results)
    ensures forall d: Dim :: d in chart
    ensures forall d: Dim :: chart[d].Keys == {First(d), Second(d)}
    ensures forall d: Dim :: results[d].percentage.None? ==>
      chart[d][First(d)].None? && chart[d][Second(d)].None?
    ensures ChartReportsBase(chart, results)
  {
    var chart := map d: Dim | d in Dimensions :: ChartOf(d, results[d]);
    forall d: Dim
      ensures d in chart
      ensures chart[d].Keys == {First(d), Second(d)}
      ensures results[d].percentage.None? ==> chart[d][First(d)].None? && chart[d][Second(d)].None?
      ensures results[d].percentage.Some? ==>
        && chart[d][Base(d)] == results[d].percentage
        && chart[d][Opposite(d, Base(d))] == Some(Complement(results[d].percentage.value))
    {
      assert Dimensions[Index(d)] == d;
    }
    chart
  }

  function CalculateAllScores(responses: map<int, Num>, questions: seq<Question>, opts: Options): (r: AllScores)
    ensures forall d: Dim :: d in r.dimensions && d in r.details && d in r.chartData
    ensures r.dimensions == ScoreAll(responses, questions, opts)
    // composite code
    ensures r.mbtiType.Some? <==> forall d: Dim :: r.dimensions[d].letter.Some?
    ensures r.mbtiType.Some? ==>
      && |r.mbtiType.value| == 6
      && r.mbtiType.value[4] == '-'
      && forall d: Dim :: [r.mbtiType.value[CodePosition(d)]] == r.dimensions[d].letter.value
    // errors: exactly the dimensions' errors, in dimension order
    ensures forall e :: e in r.errors <==> exists d: Dim :: r.dimensions[d].error == Some(e)
    ensures forall i, j :: 0 <= i < j < |r.errors| ==> Index(r.errors[i].dimension) < Index(r.errors[j].dimension)
    // details and chart: unknown is null, never zero
    ensures forall d: Dim :: r.details[d].Unavailable? <==> r.dimensions[d].percentage.None?
    ensures forall d: Dim :: r.details[d].Split? ==> r.details[d].second == Complement(r.details[d].first)
    // the first share is the first letter's: the percentage when the base is
    // the first letter, its complement otherwise
    ensures forall d: Dim :: r.details[d].Split? && r.dimensions[d].base == First(d) ==>
      r.details[d].first == r.dimensions[d].percentage.value
    ensures forall d: Dim :: r.details[d].Split? && r.dimensions[d].base != First(d) ==>
      r.details[d].first == Complement(r.dimensions[d].percentage.value)
    ensures forall d: Dim :: r.chartData[d].Keys == {First(d), Second(d)}
    ensures forall d: Dim :: r.dimensions[d].percentage.None? ==>
      r.chartData[d][First(d)].None? && r.chartData[d][Second(d)].None?
    // the base letter's chart value is the percentage, the other letter's its complement
    ensures ChartReportsBase(r.chartData, r.dimensions)
  {
    var results := ScoreAll(responses, questions, opts);
    AllScores(Compose(results), results, Details(results), ChartData(results), ErrorList(results))
  }

  /** The composite code spells the five base letters exactly when every
      dimension resolved to its base letter. */
  lemma ComposeBaseCode(results: map<Dim, DimensionScore>)
    requires Coherent(results)
    ensures Compose(results) == Some("ENTJ-A") <==> forall d: Dim :: results[d].letter == Some(Base(d))
  {
    if Compose(results) == Some("ENTJ-A") {
      BaseCodeSpellsBase(results);
    }
    if forall d: Dim :: results[d].letter == Some(Base(d)) {
      BaseLettersSpellCode(results);
    }
  }

  /** Reading the base code back gives the base letter of every dimension. */
  lemma BaseCodeSpellsBase(results: map<Dim, DimensionScore>)
    requires Coherent(results)
    requires Compose(results) == Some("ENTJ-A")
    ensures forall d: Dim :: results[d].letter == Some(Base(d))
  {
    forall d: Dim ensures results[d].letter == Some(Base(d)) {
      assert ["ENTJ-A"[CodePosition(d)]] == results[d].letter.value;
    }
  }

  /** Five base letters compose to the base code. */
  lemma {:induction false} BaseLettersSpellCode(results: map<Dim, DimensionScore>)
    requires Coherent(results)
    requires forall d: Dim :: results[d].letter == Some(Base(d))
    ensures Compose(results) == Some("ENTJ-A")
  {
    assert results[EI].letter.value == "E" && results[SN].letter.value == "N";
    assert results[TF].letter.value == "T" && results[JP].letter.value == "J";
    assert results[AT].letter.value == "A";
    assert "E" + "N" + "T" + "J" + "-" + "A" == "ENTJ-A";
  }

  /** The composite code is `ENTJ-A` exactly when every dimension's
      percentage is a number of at least 50 (the tie at 50 goes to the base
      letter). */
  lemma {:induction false} BaseCodeIffAllAtLeastHalf(responses: map<int, Num>, questions: seq<Question>,
                                                     opts: Options)
    ensures var r := CalculateAllScores(responses, questions, opts);
            r.mbtiType == Some("ENTJ-A") <==>
            forall d: Dim :: r.dimensions[d].percentage.Some? && r.dimensions[d].percentage.value.Finite?
                             && r.dimensions[d].percentage.value.value >= 50.0
  {
    var results := ScoreAll(responses, questions, opts);
    ComposeBaseCode(results);
    forall d: Dim
      ensures results[d].letter == Some(Base(d)) <==>
              results[d].percentage.Some? && results[d].percentage.value.Finite?
              && results[d].percentage.value.value >= 50.0
    {
      ScoreAllIsPerDimension(responses, questions, opts, d);
    }
  }
}

=== FILE: sequencer.dfy ===
/** The question sequencer: shuffle the bank, then repair runs of more than
    `maxConsecutive` questions of one dimension by swapping the last question
    of the run with a distant question of another dimension, reshuffling when
    repairs get stuck, within a bounded number of attempts. */
module Sequencer {
  import opened Questions
  import opened Runs
  import opened Shuffling

  const DefaultMaxConsecutive: nat := 2
  /** Successful repairs allowed on one shuffle before a fresh one is drawn. */
  const MaxFixAttempts: nat := 50

  /** The run limit the violation search enforces for a requested limit `k`.
      The search compares its count with `k` only after first incrementing it,
      so a limit of 0 still tolerates single questions and reports pairs. */
  function Enforced(k: nat): (w: nat)
    ensures w >= 1 && w >= k
    ensures k >= 1 ==> w == k
    ensures k == 0 ==> w == 1
  {
    if k == 0 then 1 else k
  }

  /** The first run of more than `Enforced(k)` questions of one dimension,
      reported by its start, its dimension and the count at which the scan
      stopped, or `None` when there is no such run. */
  method FindConsecutiveViolation(qs: seq<Question>, k: nat) returns (v: Option<Violation>)
    ensures v.None? <==> NoLongRun(qs, Enforced(k))
    ensures v.Some? ==>
              && LongRunAt(qs, v.value.position, Enforced(k))
              && v.value.dimension == qs[v.value.position].dimension
              && v.value.consecutiveCount == Enforced(k) + 1
              && forall i :: 0 <= i < v.value.position ==> !LongRunAt(qs, i, Enforced(k))
  {
    var w := Enforced(k);
    var i := 0;
    while i < |qs| - k
      invariant 0 <= i
      invariant forall i' :: 0 <= i' < i ==> !LongRunAt(qs, i', w)
    {
      var dimension := qs[i].dimension;
      var count := 1;
      var j := i + 1;
      while j < |qs|
        invariant i + 1 <= j <= |qs|
        invariant count == j - i && count <= w
        invariant Run(qs, i, count)
      {
        if qs[j].dimension == dimension {
          count := count + 1;
          if count > k {
            assert count == w + 1 && LongRunAt(qs, i, w);
            return Some(Violation(i, dimension, count));
          }
        } else {
          break;
        }
        j := j + 1;
      }
      i := i + 1;
    }
    return None;
  }

  /** Some window of `k + 1` questions of one dimension starts in
      `[pos - k, pos]`, that is, covers `pos`. */
  predicate LocalViolation(qs: seq<Question>, pos: int, k: nat) {
    exists i :: pos - k <= i <= pos && LongRunAt(qs, i, k)
  }

  /** Whether some listed position is covered by a window of `k + 1`
      questions of one dimension; only the windows near the positions are
      scanned. */
  method CheckLocalViolations(qs: seq<Question>, positions: seq<int>, k: nat) returns (found: bool)
    ensures found <==> exists p :: 0 <= p < |positions| && LocalViolation(qs, positions[p], k)
  {
    var p := 0;
    while p < |positions|
      invariant 0 <= p <= |positions|
      invariant forall p' :: 0 <= p' < p ==> !LocalViolation(qs, positions[p'], k)
    {
      var pos := positions[p];
      var start := if pos - k > 0 then pos - k else 0;
      var end := if |qs| < pos + k + 1 then |qs| else pos + k + 1;
      var i := start;
      while i < end - k
        invariant start <= i
        invariant forall i' :: start <= i' < i ==> !LongRunAt(qs, i', k)
      {
        var dimension := qs[i].dimension;
        var count := 1;
        var j := i + 1;
        while j <= i + k
          invariant i + 1 <= j <= i + k + 1
          invariant count == j - i
          invariant Run(qs, i, count)
        {
          if j < |qs| && qs[j].dimension == dimension {
            count := count + 1;
          } else {
            break;
          }
          j := j + 1;
        }
        if count > k {
          assert LongRunAt(qs, i, k);
          assert LocalViolation(qs, positions[p], k);
          return true;
        }
        i := i + 1;
      }
      p := p + 1;
    }
    return false;
  }

  /** A swap partner for the run's last question at `last`: a question of
      another dimension such that, after the swap, no window of
      `DefaultMaxConsecutive + 1` questions of one dimension covers either
      swapped position. */
  predicate Acceptable(qs: seq<Question>, dim: string, last: nat, i: nat)
    requires last < |qs| && i < |qs|
  {
    && qs[i].dimension != dim
    && !LocalViolation(Swap(qs, last, i), last, DefaultMaxConsecutive)
    && !LocalViolation(Swap(qs, last, i), i, DefaultMaxConsecutive)
  }

  /** The indices the repair tries for a run `[position, endPos)`: those at
      least three past its end, then those more than three before its start. */
  predicate Candidate(n: nat, position: nat, endPos: nat, i: nat) {
    (endPos + 3 <= i < n) || i < position - 3
  }

  /** `i` is tried before `j`: the far side ascending, then the near side
      ascending. */
  predicate TriedBefore(endPos: nat, i: nat, j: nat) {
    if j >= endPos + 3 then endPos + 3 <= i < j else i >= endPos + 3 || i < j
  }

  /** `i` is the first candidate, in the order tried, that is acceptable. */
  predicate FirstAcceptable(qs: seq<Question>, position: nat, dim: string, endPos: nat, i: nat)
    requires 1 <= endPos <= |qs|
  {
    && Candidate(|qs|, position, endPos, i) && i < |qs|
    && Acceptable(qs, dim, endPos - 1, i)
    && forall i': nat :: Candidate(|qs|, position, endPos, i') && i' < |qs| && TriedBefore(endPos, i', i) ==>
                        !Acceptable(qs, dim, endPos - 1, i')
  }

  /** No candidate is acceptable. */
  predicate NoneAcceptable(qs: seq<Question>, position: nat, dim: string, endPos: nat)
    requires 1 <= endPos <= |qs|
  {
    forall i: nat :: Candidate(|qs|, position, endPos, i) && i < |qs| ==> !Acceptable(qs, dim, endPos - 1, i)
  }

  /** One repair of the run reported by `v`: swap its last question with the
      first acceptable candidate, or report failure and change nothing. */
  method FixViolation(qs: seq<Question>, v: Violation) returns (fixed: bool, r: seq<Question>)
    requires v.position < |qs| && qs[v.position].dimension == v.dimension
    ensures |r| == |qs| && multiset(r) == multiset(qs)
    ensures var endPos := RunEnd(qs, v.position, v.dimension);
            && v.position < endPos
            && (!fixed ==> r == qs && NoneAcceptable(qs, v.position, v.dimension, endPos))
            && (fixed ==> exists i: nat :: FirstAcceptable(qs, v.position, v.dimension, endPos, i)
                                           && r == Swap(qs, endPos - 1, i))
            && (fixed ==> RunEnd(r, v.position, v.dimension) == endPos - 1)
  {
    var endPos := RunEnd(qs, v.position, v.dimension);
    var last := endPos - 1;
    var far := FarPartner(qs, v.dimension, last);
    if far.Some? {
      var i := far.value;
      FarIsFirst(qs, v.position, v.dimension, endPos, last, i);
      RepairShortensRun(qs, v.position, v.dimension, i);
      return true, Swap(qs, last, i);
    }
    var near := NearPartner(qs, v.dimension, last, v.position);
    if near.Some? {
      var i := near.value;
      NearIsFirst(qs, v.position, v.dimension, endPos, last, i);
      RepairShortensRun(qs, v.position, v.dimension, i);
      return true, Swap(qs, last, i);
    }
    return false, qs;
  }

  /** A partner found on the far side is the first acceptable candidate. */
  lemma FarIsFirst(qs: seq<Question>, position: nat, dim: string, endPos: nat, last: nat, i: nat)
    requires last + 1 == endPos <= |qs|
    requires last + 4 <= i < |qs| && Acceptable(qs, dim, last, i)
    requires forall i': nat :: last + 4 <= i' < i ==> !Acceptable(qs, dim, last, i')
    ensures FirstAcceptable(qs, position, dim, endPos, i)
  {
  }

  /** A partner found on the near side, after the whole far side failed, is
      the first acceptable candidate. */
  lemma NearIsFirst(qs: seq<Question>, position: nat, dim: string, endPos: nat, last: nat, i: nat)
    requires last + 1 == endPos <= |qs|
    requires i < position - 3 && i < |qs| && Acceptable(qs, dim, last, i)
    requires forall i': nat :: last + 4 <= i' < |qs| ==> !Acceptable(qs, dim, last, i')
    requires forall i': nat :: i' < i ==> !Acceptable(qs, dim, last, i')
    ensures FirstAcceptable(qs, position, dim, endPos, i)
  {
  }

  /** The first acceptable partner for the run's last question at `last`
      among those at least three past the run's end, in ascending order. */
  method FarPartner(qs: seq<Question>, dim: string, last: nat) returns (p: Option<nat>)
    requires last < |qs|
    ensures p.Some? ==> last + 4 <= p.value < |qs| && Acceptable(qs, dim, last, p.value)
    ensures p.Some? ==> forall i': nat :: last + 4 <= i' < p.value ==> !Acceptable(qs, dim, last, i')
    ensures p.None? ==> forall i': nat :: last + 4 <= i' < |qs| ==> !Acceptable(qs, dim, last, i')
  {
    var i := last + 4;
    while i < |qs|
      invariant last + 4 <= i
      invariant forall i': nat :: last + 4 <= i' < i && i' < |qs| ==> !Acceptable(qs, dim, last, i')
    {
      var ok, _ := TrySwap(qs, dim, last, i);
      if ok {
        return Some(i);
      }
      i := i + 1;
    }
    return None;
  }

  /** The first acceptable partner for the question at `last` among those
      more than three before the run's start `position`, in ascending
      order. */
  method NearPartner(qs: seq<Question>, dim: string, last: nat, position: nat) returns (p: Option<nat>)
    requires position <= last < |qs|
    ensures p.Some? ==> p.value < position - 3 && Acceptable(qs, dim, last, p.value)
    ensures p.Some? ==> forall i': nat :: i' < p.value ==> !Acceptable(qs, dim, last, i')
    ensures p.None? ==> forall i': nat :: i' < position - 3 ==> !Acceptable(qs, dim, last, i')
  {
    var i := 0;
    while i < position - 3
      invariant i <= last
      invariant forall i': nat :: i' < i ==> !Acceptable(qs, dim, last, i')
    {
      var ok, _ := TrySwap(qs, dim, last, i);
      if ok {
        return Some(i);
      }
      i := i + 1;
    }
    return None;
  }

  /** One candidate of the repair: if `qs[i]` has another dimension, swap it
      with the run's last question at `last` on a copy and check the two
      positions locally; `ok` when the copy passes. */
  method TrySwap(qs: seq<Question>, dim: string, last: nat, i: nat) returns (ok: bool, temp: seq<Question>)
    requires last < |qs| && i < |qs|
    ensures ok <==> Acceptable(qs, dim, last, i)
    ensures ok ==> temp == Swap(qs, last, i)
  {
    if qs[i].dimension == dim {
      return false, qs;
    }
    temp := Swap(qs, last, i);
    var localCheck := CheckLocalViolations(temp, [last, i], DefaultMaxConsecutive);
    LocalCheckOfPair(temp, last, i, localCheck);
    ok := !localCheck;
  }

  /** Swapping the run's last question with a candidate of another dimension
      ends the run one question earlier. */
  lemma RepairShortensRun(qs: seq<Question>, position: nat, dim: string, i: nat)
    requires position < |qs| && qs[position].dimension == dim
    requires var endPos := RunEnd(qs, position, dim);
             Candidate(|qs|, position, endPos, i) && i < |qs| && qs[i].dimension != dim
    ensures var endPos := RunEnd(qs, position, dim);
            RunEnd(Swap(qs, endPos - 1, i), position, dim) == endPos - 1
  {
    var endPos := RunEnd(qs, position, dim);
    var r := Swap(qs, endPos - 1, i);
    RunEndUnique(r, position, dim, endPos - 1);
  }

  /** The local check of two positions, in terms of the two positions. */
  lemma LocalCheckOfPair(qs: seq<Question>, a: int, b: int, found: bool)
    requires found <==> exists p :: 0 <= p < |[a, b]| && LocalViolation(qs, [a, b][p], DefaultMaxConsecutive)
    ensures !found <==> !LocalViolation(qs, a, DefaultMaxConsecutive) && !LocalViolation(qs, b, DefaultMaxConsecutive)
  {
    assert [a, b][0] == a && [a, b][1] == b;
  }

  /** Outer attempts the loop makes when none succeeds. */
  function Attempts(maxAttempts: int): (n: nat)
    ensures maxAttempts >= 0 ==> n == maxAttempts
    ensures maxAttempts < 0 ==> n == 0
  {
    if maxAttempts > 0 then maxAttempts else 0
  }

  /** Up to `MaxFixAttempts` successful repairs of one shuffle. `done` says
      the scan found no violation, and then `r` has no long run; otherwise the
      repairs ran out or one failed, and `r` is whatever they left. */
  method RepairShuffle(shuffled: seq<Question>, k: nat) returns (done: bool, r: seq<Question>)
    ensures |r| == |shuffled| && multiset(r) == multiset(shuffled)
    ensures done ==> NoLongRun(r, Enforced(k))
    ensures NoLongRun(shuffled, Enforced(k)) ==> done && r == shuffled
  {
    r := shuffled;
    var fixAttempts := 0;
    while fixAttempts < MaxFixAttempts
      invariant |r| == |shuffled| && multiset(r) == multiset(shuffled)
      invariant NoLongRun(shuffled, Enforced(k)) ==> fixAttempts == 0 && r == shuffled
      decreases MaxFixAttempts - fixAttempts
    {
      var violation := FindConsecutiveViolation(r, k);
      if violation.None? {
        return true, r;
      }
      var fixed;
      fixed, r := FixViolation(r, violation.value);
      if !fixed {
        break;
      }
      fixAttempts := fixAttempts + 1;
    }
    return false, r;
  }

  /** Random draws consumed by `shuffles` shuffles of `n` questions. */
  function DrawsFor(shuffles: nat, n: nat): (d: nat)
    ensures shuffles >= 1 ==> d >= Draws(n)
  {
    if shuffles == 0 then 0 else DrawsFor(shuffles - 1, n) + Draws(n)
  }

  /** One attempt of the outer loop: a fresh shuffle read at `c`, then its
      repairs. A shuffle that is already clean is returned as drawn. */
  method ShuffleAndRepair(qs: seq<Question>, k: nat, random: nat -> real, c: nat)
    returns (done: bool, r: seq<Question>)
    requires IsRandomSource(random)
    ensures |r| == |qs| && multiset(r) == multiset(qs)
    ensures done ==> NoLongRun(r, Enforced(k))
    ensures NoLongRun(Shuffle(qs, random, c), Enforced(k)) ==> done && r == Shuffle(qs, random, c)
  {
    done, r := RepairShuffle(Shuffle(qs, random, c), k);
  }

  /** The outer loop: up to `maxAttempts` attempts, stopping at the first
      that ends clean. `found` says one did, and then `r` is its result; `c`
      is the first unread draw. A first shuffle that is already clean is
      returned as drawn. */
  method RetryShuffles(qs: seq<Question>, k: nat, maxAttempts: int, random: nat -> real, cursor: nat)
    returns (found: bool, r: seq<Question>, c: nat)
    requires IsRandomSource(random)
    ensures |r| == |qs| && multiset(r) == multiset(qs)
    ensures found ==> NoLongRun(r, Enforced(k))
    ensures found ==> exists a: nat :: 1 <= a <= maxAttempts && c == cursor + DrawsFor(a, |qs|)
    ensures !found ==> c == cursor + DrawsFor(Attempts(maxAttempts), |qs|)
    ensures maxAttempts >= 1 && NoLongRun(Shuffle(qs, random, cursor), Enforced(k)) ==>
              found && r == Shuffle(qs, random, cursor) && c == cursor + Draws(|qs|)
  {
    if maxAttempts < 1 {
      return false, qs, cursor;
    }
    var done;
    done, r := ShuffleAndRepair(qs, k, random, cursor);
    c := cursor + Draws(|qs|);
    assert c == cursor + DrawsFor(1, |qs|);
    if done {
      return true, r, c;
    }
    found, r, c := RetryFrom(qs, k, maxAttempts, random, cursor, 1, c);
  }

  /** The outer loop after `attempt` failed attempts, `c` being the first
      unread draw. */
  method RetryFrom(qs: seq<Question>, k: nat, maxAttempts: int, random: nat -> real, cursor: nat,
                   attempt: nat, c: nat)
    returns (found: bool, r: seq<Question>, next: nat)
    requires IsRandomSource(random)
    requires attempt <= Attempts(maxAttempts)
    requires c == cursor + DrawsFor(attempt, |qs|)
    ensures |r| == |qs| && multiset(r) == multiset(qs)
    ensures found ==> NoLongRun(r, Enforced(k))
    ensures found ==> exists a: nat :: attempt < a <= maxAttempts && next == cursor + DrawsFor(a, |qs|)
    ensures !found ==> next == cursor + DrawsFor(Attempts(maxAttempts), |qs|)
  {
    var n := attempt;
    next := c;
    r := qs;
    while n < maxAttempts
      invariant attempt <= n <= Attempts(maxAttempts)
      invariant next == cursor + DrawsFor(n, |qs|)
      invariant |r| == |qs| && multiset(r) == multiset(qs)
      decreases maxAttempts - n
    {
      n := n + 1;
      var done;
      done, r := ShuffleAndRepair(qs, k, random, next);
      next := next + Draws(|qs|);
      if done {
        assert attempt < n <= maxAttempts && next == cursor + DrawsFor(n, |qs|);
        return true, r, next;
      }
    }
    found := false;
  }

  /** A shuffled copy of `qs` with no run of more than `Enforced(k)` questions
      of one dimension, or, once `maxAttempts` shuffles (each with up to
      `MaxFixAttempts` repairs) have all failed, a plain fresh shuffle with
      `exhausted` set. Random draws are read from `random` at `cursor` on;
      `next` is the first unread draw. */
  method ShuffleQuestions(qs: seq<Question>, k: nat, maxAttempts: int, random: nat -> real, cursor: nat)
    returns (r: seq<Question>, exhausted: bool, next: nat)
    requires IsRandomSource(random)
    ensures |r| == |qs| && multiset(r) == multiset(qs)
    ensures !exhausted ==> NoLongRun(r, Enforced(k))
    ensures !exhausted ==> exists a: nat :: 1 <= a <= maxAttempts && next == cursor + DrawsFor(a, |qs|)
    ensures exhausted ==> r == Shuffle(qs, random, cursor + DrawsFor(Attempts(maxAttempts), |qs|))
    ensures exhausted ==> next == cursor + DrawsFor(Attempts(maxAttempts) + 1, |qs|)
    ensures maxAttempts >= 1 && NoLongRun(Shuffle(qs, random, cursor), Enforced(k)) ==>
              !exhausted && r == Shuffle(qs, random, cursor) && next == cursor + Draws(|qs|)
  {
    var found, clean, c := RetryShuffles(qs, k, maxAttempts, random, cursor);
    if found {
      r, exhausted, next := clean, false, c;
    } else {
      r, next := FreshShuffle(qs, maxAttempts, random, cursor, c);
      exhausted := true;
    }
  }

  /** The fallback after every attempt failed: one more plain shuffle, read
      at `c`, where the attempt loop left off. Given that the loop used the
      draws of all `Attempts(maxAttempts)` attempts, the fallback is the
      shuffle that follows them and consumes one shuffle's draws more. */
  method FreshShuffle(qs: seq<Question>, maxAttempts: int, random: nat -> real, cursor: nat, c: nat)
    returns (r: seq<Question>, next: nat)
    requires IsRandomSource(random)
    requires c == cursor + DrawsFor(Attempts(maxAttempts), |qs|)
    ensures |r| == |qs| && multiset(r) == multiset(qs)
    ensures r == Shuffle(qs, random, cursor + DrawsFor(Attempts(maxAttempts), |qs|))
    ensures next == cursor + DrawsFor(Attempts(maxAttempts) + 1, |qs|)
  {
    r := Shuffle(qs, random, c);
    next := c + Draws(|qs|);
  }
}

=== FILE: shuffle.dfy ===
/** The Fisher-Yates shuffle, with `Math.random` as an oracle: `random(c)` is
    the value the `c`-th call returns, a real in [0, 1). */
module Shuffling {

  ghost predicate IsRandomSource(random: nat -> real) {
    forall c :: 0.0 <= random(c) < 1.0
  }

  /** Exchange of two positions. */
  function Swap<T>(s: seq<T>, i: nat, j: nat): (r: seq<T>)
    requires i < |s| && j < |s|
    ensures |r| == |s| && r[i] == s[j] && r[j] == s[i]
    ensures forall t :: 0 <= t < |s| && t != i && t != j ==> r[t] == s[t]
    ensures multiset(r) == multiset(s)
  {
    s[i := s[j]][j := s[i]]
  }

  /** `Math.floor(Math.random() * (i + 1))`: an index in [0, i]. */
  function Pick(random: nat -> real, c: nat, i: nat): (j: nat)
    requires IsRandomSource(random)
    ensures j <= i
  {
    var x := random(c) * (i + 1) as real;
    assert 0.0 <= x < (i + 1) as real by {
      assert random(c) * (i + 1) as real < 1.0 * (i + 1) as real;
    }
    x.Floor
  }

  /** The shuffle loop from index `i` down to 1, drawing from call `c` on. */
  function FisherYates<T>(s: seq<T>, i: nat, random: nat -> real, c: nat): (r: seq<T>)
    requires i < |s|
    requires IsRandomSource(random)
    ensures |r| == |s| && multiset(r) == multiset(s)
    decreases i
  {
    if i == 0 then s
    else FisherYates(Swap(s, i, Pick(random, c, i)), i - 1, random, c + 1)
  }

  /** How many random draws a shuffle of `n` elements makes. */
  function Draws(n: nat): nat {
    if n == 0 then 0 else n - 1
  }

  /** A shuffled copy of `s`, drawing from call `c` on; `s` itself is a value
      and stays as it was. */
  function Shuffle<T>(s: seq<T>, random: nat -> real, c: nat): (r: seq<T>)
    requires IsRandomSource(random)
    ensures |r| == |s| && multiset(r) == multiset(s)
  {
    if |s| == 0 then s else FisherYates(s, |s| - 1, random, c)
  }
}
